=== FILE: README.md ===
# Delay the Inevitable: a verified model of the game's simulation core

In *Delay the Inevitable* the player is a glowing mosquito whose light fades over time. The mosquito has to bite to recharge it.

- A swarm of insect boids flocks around the player and around lights. Each boid obeys cohesion, separation, player attraction and light attraction.
- Praying mantises walk towards a randomly chosen insect. A mantis flees when a player who still has energy comes close. When its target is within reach it prepares an attack, then eats the target and disappears.
- A difficulty curve driven by the time since the level was loaded sets the mosquito's base speed and the spawn intervals.
- A sliding-window estimator derives the cursor's acceleration from its recent positions.

The model is written over `real` numbers. Everything the game reads from the engine is a parameter of the operation that reads it:

- the frame time, the level time and the game-over flag;
- positions;
- the engine's vector length and distance functions, `SmoothDamp`, the sine wave and `PlayArea.IsInPlayArea`.

The modules are:

| module | file | models |
|---|---|---|
| `Mathf`, `Vectors` | `unity_math.dfy` | `Mathf.Clamp`, `Clamp01`, `Lerp`, `Sign`; `Vector2`/`Vector3`; `ClampMagnitude` |
| `Wrappers`, `Lists` | `wrappers.dfy`, `lists.dfy` | `Option`; `List.Add`/`List.Remove` on the shared registries |
| `Predator` | `mantis.dfy` | `Mantis` state machine, its attack-preparation coroutine and target choice |
| `Boids` | `insect_boid.dfy` | `InsectBoid` rules, shared insect list, turning and velocity clamp |
| `Lights` | `light_attraction.dfy` | `LightAttraction` registry and choice of the most attractive light |
| `Inertia` | `compute_inertia.dfy` | `ComputeInertia` shift registers and acceleration estimate |
| `Energy` | `player_energy.dfy` | `PlayerEnergy` decay, bite reset and flashing |
| `Facing` | `facing.dfy` | the turn rule shared by mantis and insect (`TURN_INTERVAL` of 1 s) |
| `Difficulty` | `difficulty.dfy` | `DifficultyManager` tunables |
| `PlayArea` | `play_area.dfy` | `PlayArea.ClampToPlayArea` |
| `Curves` | `curves.dfy` | the polynomial easing curves of `CurvesLibrary` |

The state that the game's scripts update in place is modelled by classes:

- `Mantis`, `InsectBoid`, `PlayerEnergy` and `ComputeInertia`;
- the registries `InsectRegistry` and `LightRegistry`, which stand for the static lists `InsectBoid.insects` and `LightAttraction.lights`. Both hold references (ids), and each query reads the current positions, or the lights' current records, from a map passed to it.

`ComputeInertia` keeps its two shift registers as arrays and shifts them in place.

Each method is proved against a function that specifies it, and the lemmas are stated over that function. For example:

- `Mantis.Update` is proved against `NextState` and `TargetMovement`;
- `GetMostAttractiveLight` against `MostAttractiveLight`;
- `LinearAcceleration` against `Estimate`.

A mantis's attack preparation is a coroutine in the game. Here it is the fields `preparing` and `progress`, which `ResumePreparation` advances once per frame. `Tick` is one whole frame: `Update`, then the resumption of a preparation that was already running. Effects on the rest of the world are appended to the mantis's `effects` log rather than performed. These effects are the emote, sounds, the attack trigger, and the destruction of the target and of the mantis itself.

Three behaviours of the code that are easy to miss:

- **`Mathf.Lerp` clamps its parameter.** As a result the insect's maximum velocity (`InsectBoid.cs:225`) always lies between `maxVelocityBase` and `maxVelocityPlayerNear`. It does not extrapolate past them at distances beyond `playerProximityZoneRadius`.
- **A finished preparation strikes whatever the state.** The attack preparation checks the state only while `t < 1` (`Mantis.cs:142-147`). Once a resumption finds `t >= 1`, the attack runs even if the mantis was spooked in the meantime. Only the existence of the target is checked (`Mantis.cs:156`).
- **The strike may hit a new target.** If the target disappears during the preparation, `Update` picks a new one (`Mantis.cs:66-69`). The completed attack then destroys that new target wherever it is. `Tick` states this behaviour exactly: the target an empty-handed `Update` picks is the one whose destruction is logged.

## Model

| member | source | states |
|---|---|---|
| `Mathf.Clamp` | Assets/Scripts/PlayArea.cs:18-19 | For a non-empty interval the result lies inside it; a value inside is returned unchanged, a value below gives the minimum and a value above gives the maximum |
| `Mathf.Lerp` | Assets/Scripts/DifficultyManager.cs:12-24 | Interpolation clamps its parameter: it is `a + (b - a) × t` for t in [0, 1], `a` at t ≤ 0 and `b` at t ≥ 1, and never leaves the segment between `a` and `b` |
| `Mathf.LerpMonotone` | Assets/Scripts/DifficultyManager.cs:14-24 | Lerp is monotone in its parameter, in the direction of `b - a` |
| `Mathf.Sign` | Assets/Scripts/Mantis.cs:73 | `Mathf.Sign` is 1 exactly for non-negative arguments, zero included, and -1 otherwise |
| `Vectors.ClampMagnitude3` | Assets/Scripts/InsectBoid.cs:226 | A vector within the limit is unchanged; a longer one is rescaled by `maxLength / length`, to a length of exactly the limit |
| `Vectors.ClampMagnitude2` | Assets/Scripts/ComputeInertia.cs:25 | The same for Vector2 |
| `Vectors.DistanceComparisons` | Assets/Scripts/InsectBoid.cs:88-94 | Comparing squared distances with squared radii decides the same `<` and `>` as comparing the distances |
| `Lists.IndexOf` | Assets/Scripts/InsectBoid.cs:56 | The position of the first occurrence, or the length when there is none |
| `Lists.Remove` | Assets/Scripts/InsectBoid.cs:56 | `List.Remove` drops the first occurrence and keeps the order of the rest; an absent element leaves the list as it is |
| `Lists.RemoveFromDistinct` | Assets/Scripts/InsectBoid.cs:49-57 | In a list without duplicates, removal leaves the element absent and the list still duplicate-free |
| `Lists.RemoveKeepsOthers` | Assets/Scripts/LightAttraction.cs:14-22 | Removing one element does not change whether any other element is present |
| `Lists.AddThenRemove` | Assets/Scripts/InsectBoid.cs:49-57 | An enable followed by a disable of a new element restores the list exactly |
| `Predator.SpookedByPlayer` | Assets/Scripts/Mantis.cs:38-47 | Never spooked when the player's energy is at most 0.01; otherwise spooked exactly when the player is inside the flight zone |
| `Predator.ExhaustedPlayerSpooksNoMantis` | Assets/Scripts/Mantis.cs:42 | Once the player's light has burned for the whole deplete time without a bite, no mantis is spooked by the player |
| `Predator.Expire` | Assets/Scripts/Mantis.cs:78-79 | Only the Spooked state expires, and it turns into MovingToTarget exactly when the time is past `spookTime + spookStateDuration` |
| `Predator.NearPlayerKeepsSpooked` | Assets/Scripts/Mantis.cs:78-83 | Expiry is checked before the spook trigger, so a frame in which the player is near always ends Spooked |
| `Predator.SpookLastsItsDuration` | Assets/Scripts/Mantis.cs:78-86 | A spooked mantis stays Spooked until its spook duration has passed, whatever the player and the target do |
| `Predator.AttackingExactly` | Assets/Scripts/Mantis.cs:78-86 | After a frame's state changes the mantis is Attacking exactly when the player does not spook it and it was Attacking already or passes the guards: target within reach horizontally, inside the play area, and not still Spooked |
| `Predator.MovingToTargetExactly` | Assets/Scripts/Mantis.cs:78-86 | It is MovingToTarget exactly when it was moving (or its spook expired), the player is not near and the attack guards fail |
| `Predator.Flee` | Assets/Scripts/Mantis.cs:97 | The push away from the player points away from the player and is at most 10 in size |
| `Predator.TargetMovement` | Assets/Scripts/Mantis.cs:88-102 | Attacking stands still; MovingToTarget walks at speed 1 towards the target; Spooked adds the flee push to a walk of speed 2 towards the spawn point |
| `Predator.PrepareIsLinear` | Assets/Scripts/Mantis.cs:142-145 | The preparation counter after a run of frames is its start value plus the frames' total time divided by 5 |
| `Predator.PreparationTakesFiveSeconds` | Assets/Scripts/Mantis.cs:142-144 | A preparation started from 0 is complete exactly when 5 seconds of frame time have been counted |
| `Predator.PrepareAppend` | Assets/Scripts/Mantis.cs:144 | Counting one more frame adds `dt / MantisAttackPreparation` to the counter, so the loop step of `ResumePreparation` keeps `progress == Prepare(0, frames)` |
| `Predator.SelectTarget` | Assets/Scripts/Mantis.cs:185-191 | No target exactly when the insect list is empty; otherwise an insect taken from the list |
| `Predator.Mantis.Start` | Assets/Scripts/Mantis.cs:50-58 | A new mantis moves to a target chosen from the list, remembers its spawn point and has a spook duration in [8, 13] |
| `Predator.Mantis.IsSpookedByPlayer` | Assets/Scripts/Mantis.cs:38-47 | The property reads the player's energy and the planar distance, as `SpookedByPlayer` states |
| `Predator.Mantis.Spook` | Assets/Scripts/Mantis.cs:110-121 | Always refreshes `spookTime`; it shows the emote and plays sound 3 only when the mantis was not Spooked already; nothing else changes |
| `Predator.Mantis.Attack` | Assets/Scripts/Mantis.cs:128-149 | Does nothing to a mantis that is Attacking already; otherwise it becomes Attacking and its preparation starts, counting this frame's time |
| `Predator.Mantis.Turn` | Assets/Scripts/Mantis.cs:167-183 | The facing follows the shared turn rule on `movement`, and the sprite is mirrored when it faces right |
| `Predator.Mantis.Update` | Assets/Scripts/Mantis.cs:61-108 | Nothing when the game is over; only a new target when the target is gone. Otherwise the state follows `NextState`, the movement follows SmoothDamp towards `TargetMovement`, the mantis moves horizontally by movement × dt and turns, its sprite mirrored (`scaleX` −1 facing right, 1 facing left) exactly when it turns |
| `Predator.Mantis.ChangeState` | Assets/Scripts/Mantis.cs:77-86 | Expiry, then spook, then attack: the new state is `NextState`, with the spook time, effects and preparation start that go with it |
| `Predator.Mantis.Advance` | Assets/Scripts/Mantis.cs:104-107 | SmoothDamp of the movement, a horizontal translation by movement × dt, then the turn; `scaleX` changes exactly when the heading does, to −1 facing right and 1 facing left |
| `Predator.Mantis.ResumePreparation` | Assets/Scripts/Mantis.cs:142-164 | Once the counter has reached 1 the attack fires, and it destroys the target and the mantis only if the target still exists. Otherwise the frame's time is counted and the preparation ends when the state is no longer Attacking |
| `Predator.Mantis.Tick` | Assets/Scripts/Mantis.cs:61-165 | The preparation counter is always what its counted frames add up to (`Prepare`). A mantis is destroyed only by a preparation that was already running, that counted at least 5 seconds and whose target still exists, and its last effects are then the destruction of the target and of itself. A preparation whose mantis has left Attacking before completing ends without destroying anything. A running preparation counts this frame while incomplete, and once complete always ends, destroying the mantis whenever its target exists. A preparation starts exactly when the frame's `Update` enters Attacking, and a running one continues while the mantis stays Attacking. The `Update` half is stated as in `Update`: the state follows `NextState`, `spookTime` is refreshed on a spook, the movement follows SmoothDamp towards `TargetMovement`, the position moves by movement × dt, the mantis turns with `scaleX` mirrored exactly when it turns, and it keeps its target; a gone target is replaced by a listed insect with state and position kept; nothing moves once the game is over. The effect log grows by exactly the spook's emote and sound on entering Spooked, then `AttackTrigger` when a complete preparation ends, followed by the strike sound and the two destructions when its target exists |
| `Boids.CombineWeight` | Assets/Scripts/InsectBoid.cs:70-73 | With a zero near-player multiplier the weight is the base multiplier, whatever the proximity |
| `Boids.CombineWeightBounds` | Assets/Scripts/InsectBoid.cs:70-73 | For proximity in [0, 1] the weight lies between `mult1` and `mult1 × (1 + mult2)` |
| `Boids.CombineWeightMonotone` | Assets/Scripts/InsectBoid.cs:70-73 | The weight grows with the proximity |
| `Boids.Inv` | Assets/Scripts/InsectBoid.cs:75-79 | The inverse-square falloff is strictly positive wherever `x/s + ε` is not zero |
| `Boids.CohesionNeighbours` | Assets/Scripts/InsectBoid.cs:88-94 | The cohesion neighbours all have positions |
| `Boids.CohesionNeighboursMembers` | Assets/Scripts/InsectBoid.cs:88-94 | An insect is a cohesion neighbour exactly when it is in the list, is not this insect and is within `flockingMaxDistance` |
| `Boids.CohesionExcludesSelf` | Assets/Scripts/InsectBoid.cs:90 | The insect itself is never counted |
| `Boids.CohesionZeroWhenIsolated` | Assets/Scripts/InsectBoid.cs:96-97 | Cohesion is the zero vector when no other insect is within `flockingMaxDistance` |
| `Boids.CohesionBySquaredDistance` | Assets/Scripts/InsectBoid.cs:88-94 | With a Euclidean distance, the cohesion filter can be decided on squared distances |
| `Boids.SeparationNeighbours` | Assets/Scripts/InsectBoid.cs:110-114 | Every separation neighbour is at a positive distance, so the repulsion divides safely |
| `Boids.SeparationNeighboursMembers` | Assets/Scripts/InsectBoid.cs:110-114 | An insect repels exactly when it is in the list, is not this insect and lies at a distance in [0.001, `flockingMaxDistance`], both ends included |
| `Boids.PlayerRepulsion` | Assets/Scripts/InsectBoid.cs:122-126 | The player repels only when its distance lies strictly between 0.001 and `flockingMaxDistance`; otherwise it contributes nothing |
| `Boids.CohesionStep` | Assets/Scripts/InsectBoid.cs:86-95 | One more insect in the loop adds itself to the neighbours exactly when it passes the filter |
| `Boids.SumPositionsStep` | Assets/Scripts/InsectBoid.cs:93 | The running sum of positions grows by the new neighbour's position |
| `Boids.SeparationStep` | Assets/Scripts/InsectBoid.cs:108-120 | One more insect in the loop adds its repulsion exactly when it passes the filter |
| `Boids.SeparationBoundaries` | Assets/Scripts/InsectBoid.cs:110-125 | The bounds are asymmetric: an insect at exactly `flockingMaxDistance` or 0.001 still repels, the player at those distances does not |
| `Boids.PlayerAttraction` | Assets/Scripts/InsectBoid.cs:162-169 | Zero within 0.75 of the player; beyond that a positive multiple of the direction towards the player |
| `Boids.LightAttraction` | Assets/Scripts/InsectBoid.cs:171-177 | No light force exactly when no light is registered, in the game a null dereference; otherwise the direction to the current position of a registered light |
| `Boids.SeparationWeightConstant` | Assets/Scripts/InsectBoid.cs:29-30 | With the default multipliers the separation weight is 2 at every proximity |
| `Boids.MaxVelocity` | Assets/Scripts/InsectBoid.cs:225 | The speed limit lies between 0.2 and 3.5: 0.2 at or beyond `playerProximityZoneRadius`, 3.5 at the player |
| `Boids.MaxVelocityMonotone` | Assets/Scripts/InsectBoid.cs:225 | The speed limit never grows with the distance to the player |
| `Boids.Flatten` | Assets/Scripts/InsectBoid.cs:227 | Setting z to 0 keeps x and y and never lengthens the vector |
| `Boids.InsectRegistry.constructor` | Assets/Scripts/InsectBoid.cs:38 | The shared list starts empty |
| `Boids.InsectRegistry.OnEnable` | Assets/Scripts/InsectBoid.cs:49-52 | The insect joins the end of the list |
| `Boids.InsectRegistry.OnDisable` | Assets/Scripts/InsectBoid.cs:54-57 | The first occurrence of the insect leaves the list |
| `Boids.InsectBoid.constructor` | Assets/Scripts/InsectBoid.cs:13-21 | A new insect is at rest, faces left and has not turned |
| `Boids.InsectBoid.RuleCohesion` | Assets/Scripts/InsectBoid.cs:82-102 | The foreach loop computes `Cohesion`: the direction to the centre of the neighbours, or zero without neighbours |
| `Boids.InsectBoid.RuleSeparation` | Assets/Scripts/InsectBoid.cs:104-129 | The foreach loop computes `Separation`: the neighbour repulsions plus the player's |
| `Boids.InsectBoid.ApplyRules` | Assets/Scripts/InsectBoid.cs:179-194 | The weighted sum of the four rules, or no result when there is no light |
| `Boids.InsectBoid.Turn` | Assets/Scripts/InsectBoid.cs:203-219 | The facing follows the shared turn rule on the x of the target velocity, and the sprite is mirrored when it faces right |
| `Boids.InsectBoid.Update` | Assets/Scripts/InsectBoid.cs:196-201 | The target velocity becomes the steering and the insect turns, `scaleX` changing exactly when the heading does; with no light the frame changes nothing, `scaleX` included |
| `Boids.InsectBoid.Move` | Assets/Scripts/InsectBoid.cs:221-235 | The target velocity becomes the old one clamped to the speed limit for the insect's distance to the player, then flattened; the velocity follows by SmoothDamp with z = 0; the insect moves by velocity × dt only when the velocity is non-zero; heading and `scaleX` are unchanged |
| `Lights.Scores` | Assets/Scripts/LightAttraction.cs:30 | Each registered light's distance divided by its range, read from its current record, in list order |
| `Lights.FirstMinIndex` | Assets/Scripts/LightAttraction.cs:26-35 | The index of a smallest score, with every earlier score strictly larger |
| `Lights.FirstMinIndexUnique` | Assets/Scripts/LightAttraction.cs:31 | The first minimum is determined by those two properties |
| `Lights.FirstMinIndexAppend` | Assets/Scripts/LightAttraction.cs:28-35 | One more light becomes the choice exactly when its score is strictly smaller than the current minimum |
| `Lights.MostAttractiveLight` | Assets/Scripts/LightAttraction.cs:24-39 | None exactly when there is no light; otherwise a registered light whose score, from its current record, is at most every light's score |
| `Lights.TiesGoToEarliest` | Assets/Scripts/LightAttraction.cs:31 | Every light before the chosen one scores strictly more |
| `Lights.LightRegistry.constructor` | Assets/Scripts/LightAttraction.cs:10 | The shared list starts empty |
| `Lights.LightRegistry.OnEnable` | Assets/Scripts/LightAttraction.cs:14-17 | The light's reference joins the end of the list |
| `Lights.LightRegistry.OnDisable` | Assets/Scripts/LightAttraction.cs:19-22 | The first occurrence of the light's reference leaves the list, the others keep their order |
| `Lights.LightRegistry.GetMostAttractiveLight` | Assets/Scripts/LightAttraction.cs:24-39 | The single pass with a strict `<`, scoring each light from its record at query time, computes `MostAttractiveLight` |
| `Inertia.EffectiveSamples` | Assets/Scripts/ComputeInertia.cs:38-42 | The window holds at least 3 samples, and exactly the requested number when that is 3 or more |
| `Inertia.SpeedChangesTelescope` | Assets/Scripts/ComputeInertia.cs:65-90 | The sum of the consecutive speed differences is the last speed minus the first |
| `Inertia.SpanPositive` | Assets/Scripts/ComputeInertia.cs:94 | With increasing timestamps and no zero gap the window spans a positive time |
| `Inertia.Estimate` | Assets/Scripts/ComputeInertia.cs:62-105 | An estimate exists exactly when no two consecutive timestamps in the window are equal |
| `Inertia.EstimateFromEnds` | Assets/Scripts/ComputeInertia.cs:65-96 | The estimate is the change between the first and the last speed, averaged over `Length - 2` pairs, divided by the window's time span |
| `Inertia.SteadyMotionHasNoAcceleration` | Assets/Scripts/ComputeInertia.cs:65-96 | When the first and last speeds agree the estimated acceleration is zero |
| `Inertia.ShiftIn` | Assets/Scripts/ComputeInertia.cs:51-58 | The window keeps its length, each slot takes the old next slot, and the new sample is last |
| `Inertia.ShiftInSorted` | Assets/Scripts/ComputeInertia.cs:51-58 | Shifting in a time no earlier than the last keeps the timestamps in order |
| `Inertia.ComputeInertia.constructor` | Assets/Scripts/ComputeInertia.cs:9-17 | A new estimator has no registers, no samples and zero acceleration |
| `Inertia.ComputeInertia.LinearAcceleration` | Assets/Scripts/ComputeInertia.cs:28-106 | The registers are allocated once at the effective size and then only shifted; the sample count grows by one; success exactly when enough samples were taken and the window has no zero gap; the vector is the estimate, or zero on failure |
| `Inertia.ComputeInertia.AverageSpeedChange` | Assets/Scripts/ComputeInertia.cs:63-105 | The loop succeeds exactly when `Estimate` does and then returns its value; otherwise the zero vector |
| `Inertia.ComputeInertia.Shift` | Assets/Scripts/ComputeInertia.cs:51-58 | Both registers are shifted in place by one slot, with the new sample in the last |
| `Inertia.ComputeInertia.Update` | Assets/Scripts/ComputeInertia.cs:19-26 | The acceleration is the smoothed estimate clamped to `maxAcceleration` in length |
| `Energy.Deplete` | Assets/Scripts/PlayerEnergy.cs:32-33 | One frame's energy stays in [0, 1], drops by `dt / energyDepleteTime` when that stays in range, never grows for dt ≥ 0 and is 0 once drained |
| `Energy.DepleteAll` | Assets/Scripts/PlayerEnergy.cs:27-36 | After one or more frames the energy is in [0, 1] |
| `Energy.DepleteAllIsLinear` | Assets/Scripts/PlayerEnergy.cs:32-33 | Over many frames the energy is the start value minus the total time over the deplete time, floored at 0 |
| `Energy.DrainedAfterDepleteTime` | Assets/Scripts/PlayerEnergy.cs:7-33 | A full light is out after `energyDepleteTime` seconds without a bite |
| `Energy.NeverRecharges` | Assets/Scripts/PlayerEnergy.cs:32 | Without a bite the energy never increases |
| `Energy.Flash` | Assets/Scripts/PlayerEnergy.cs:40-49 | The flash is 0 or 1: 0 without energy, 1 above 0.3, otherwise set by the sine against the energy-dependent threshold |
| `Energy.FlashIgnoresSine` | Assets/Scripts/PlayerEnergy.cs:46-49 | Without energy or above 0.3 the sine does not matter |
| `Energy.GlowScale` | Assets/Scripts/PlayerEnergy.cs:53 | The glow circle scales between 3 and 10 with the energy |
| `Energy.PlayerEnergy.Start` | Assets/Scripts/PlayerEnergy.cs:19-24 | The player starts with full energy |
| `Energy.PlayerEnergy.Update` | Assets/Scripts/PlayerEnergy.cs:27-36 | Nothing happens once the game is over; otherwise the energy depletes and stays in [0, 1], never rising for dt ≥ 0, and the flash and the glow scale `GlowScale` are refreshed from the new energy |
| `Energy.PlayerEnergy.UpdateVisuals` | Assets/Scripts/PlayerEnergy.cs:38-54 | The flash and the glow scale follow the current energy |
| `Energy.PlayerEnergy.OnBite` | Assets/Scripts/PlayerEnergy.cs:56-59 | A bite refills the energy to exactly 1 |
| `Facing.Turn` | Assets/Scripts/Mantis.cs:167-183 | No turn within `TURN_INTERVAL` of the last turn, nor with a zero signal; a turn switches direction to the signal's sign and records the time |
| `Facing.SpacedCons` | Assets/Scripts/InsectBoid.cs:205 | A turn followed by turns spaced from it gives a spaced sequence |
| `Facing.TurnsAreSpaced` | Assets/Scripts/InsectBoid.cs:203-219 | Over any sequence of frames, turns are at least `TURN_INTERVAL` apart |
| `Difficulty.Difficulty01` | Assets/Scripts/DifficultyManager.cs:7-8 | The difficulty is in [0, 1]: 0 at the start, 1 from 90 seconds on, and linear in between |
| `Difficulty.DifficultyMonotone` | Assets/Scripts/DifficultyManager.cs:8 | The difficulty never decreases with time |
| `Difficulty.MantisAttackPreparation` | Assets/Scripts/DifficultyManager.cs:10-12 | The preparation time is 5 at every difficulty, so the division by it is safe |
| `Difficulty.MoskitoBaseMoveSpeed` | Assets/Scripts/DifficultyManager.cs:14-16 | The base speed is in [0.2, 0.4]: 0.2 at the start and 0.4 from 90 seconds on |
| `Difficulty.MantisSpawnInterval` | Assets/Scripts/DifficultyManager.cs:18-20 | The interval is in [15, 25]: 25 at the start and 15 from 90 seconds on |
| `Difficulty.MoskitoSpawnInterval` | Assets/Scripts/DifficultyManager.cs:22-24 | The interval is in [15, 25]: 25 at the start and 15 from 90 seconds on |
| `Difficulty.MoskitoSpeedNonDecreasing` | Assets/Scripts/DifficultyManager.cs:14-16 | The base speed never decreases with time |
| `Difficulty.SpawnIntervalsNonIncreasing` | Assets/Scripts/DifficultyManager.cs:18-24 | Both spawn intervals never increase with time |
| `PlayArea.ClampToPlayArea` | Assets/Scripts/PlayArea.cs:16-21 | For a well-formed rectangle the result lies inside it; a point already inside is returned unchanged |
| `PlayArea.ClampIdempotent` | Assets/Scripts/PlayArea.cs:16-21 | Clamping twice is clamping once |
| `PlayArea.ClampCoordinatesIndependent` | Assets/Scripts/PlayArea.cs:18-19 | Each output coordinate depends only on the same input coordinate |
| `Curves.Hermite` | Assets/Scripts/CurvesLibrary.cs:91-94 | The smoothstep curve never leaves the segment between start and end, because Lerp clamps |
| `Curves.HermiteV2` | Assets/Scripts/CurvesLibrary.cs:96-99 | Each component stays between its start and end |
| `Curves.HermiteV3` | Assets/Scripts/CurvesLibrary.cs:101-104 | Each component stays between its start and end |
| `Curves.HermiteEnds` | Assets/Scripts/CurvesLibrary.cs:91-94 | Start at t = 0, end at t = 1 |
| `Curves.QuadEaseInInRange` | Assets/Scripts/CurvesLibrary.cs:176-179 | On [0, 1] the quadratic ease-in stays between start and end |
| `Curves.QuadEaseOutInRange` | Assets/Scripts/CurvesLibrary.cs:192-195 | On [0, 1] the quadratic ease-out stays between start and end |
| `Curves.CubicEaseInInRange` | Assets/Scripts/CurvesLibrary.cs:227-230 | On [0, 1] the cubic ease-in stays between start and end |
| `Curves.CubicEaseOutInRange` | Assets/Scripts/CurvesLibrary.cs:242-246 | On [0, 1] the cubic ease-out stays between start and end |
| `Curves.QuadEnds` | Assets/Scripts/CurvesLibrary.cs:176-225 | Every Quad curve gives start at t = 0 and end at t = 1; the in-out one gives the midpoint at t = 0.5 |
| `Curves.CubicEnds` | Assets/Scripts/CurvesLibrary.cs:227-276 | The same for the Cubic curves |
| `Curves.QuartEnds` | Assets/Scripts/CurvesLibrary.cs:278-327 | The same for the Quart curves |
| `Curves.QuintEnds` | Assets/Scripts/CurvesLibrary.cs:329-378 | The same for the Quint curves |
| `Curves.BounceEnds` | Assets/Scripts/CurvesLibrary.cs:526-594 | The same for the Bounce curves |
| `Curves.BackEnds` | Assets/Scripts/CurvesLibrary.cs:596-655 | The same for the Back curves |
| `Curves.EndsV2` | Assets/Scripts/CurvesLibrary.cs:181-184 | The Vector2 overloads apply the float curve to each component and inherit its ends and midpoint |
| `Curves.EndsV3` | Assets/Scripts/CurvesLibrary.cs:186-189 | The same for the Vector3 overloads |
| `Curves.SinEaseInV2` | Assets/Scripts/CurvesLibrary.cs:385-388 | The Vector2 overload of SinEaseIn starts at `vec` at t = 0 and ends at `end` at t = 1, each component staying between its start and end for t in [0, 1]; it is the quadratic ease-in, component by component |
| `Curves.BezierEnds` | Assets/Scripts/CurvesLibrary.cs:778-785 | The handle Bezier starts at the start handle's x and ends at the end handle's y, as fractions of `end - start` past `start` |
| `Curves.BezierHandlesSpanEnds` | Assets/Scripts/CurvesLibrary.cs:778-785 | It runs from start to end when the start handle's x is 0 and the end handle's y is 1 |
| `Curves.BezierWeightedEnds` | Assets/Scripts/CurvesLibrary.cs:796-804 | The weighted Bezier starts at `start` and ends at `start + (end - start) × endWeight` |

## Left out

- Square roots, normalisation and SmoothDamp are engine numerics whose source is not shown. `Vector3.magnitude`, `Vector3.Distance`, `Vector2.Distance`, `normalized`, `Mathf.SmoothDamp`/`Vector3.SmoothDamp` and the `Mathf.Sin` wave are function parameters, constrained only where a proof needs it, for example a non-negative length. The force magnitudes that depend on them are stated only as far as the filters and clamps decide them.
- The `P` sigmoid of `InsectBoid` (atan-based) is not part of this model. `CombineWeight` takes its result as the `proximity` parameter.
- The non-polynomial curves of `CurvesLibrary`, the reflection-based curve lookup and the editor gizmo class are not part of this model. The non-polynomial curves are Sinerp, Coserp, Berp, Bounce(x), Sin*, Exp*, Circ* and Elastic*.
- `Random.Range` is modelled as follows:
  - In `SelectTarget` it is a nondeterministic choice of an index in [0, count).
  - In `Start` the spook duration is a parameter required to lie in [8, 13].
- `PlayArea.IsInPlayArea` is not defined in the shown files. It is the parameter `inPlayArea`.
- `GameManager` enters only as the `gameOver` flag. The score and events are not part of this model.
- The timed parts of the attack coroutine are collapsed into the frame that completes the preparation. These are the two 0.05-second waits, the particle effect and the delayed destruction. The 0.3-second emote hide is collapsed into the `ShowEmote` effect.
- The animator, sounds, particles, materials and sprite transforms are not modelled as such. The model keeps the facing scale `scaleX` and logs emote, sound and attack-trigger requests as `effects`.
- Destroying an insect is an effect in the mantis's log. Its removal from the shared list, through `OnDisable`, is a separate registry operation that the model does not chain to it.
- Floats are reals, with no rounding, NaN or infinity. `Boids.Cohesion`: when the neighbours' centroid coincides with the insect (a neighbour at distance 0 passes the cohesion filter) the game normalises a zero vector, 0/0; the model leaves that value to the `direction` parameter. `Mathf.Epsilon` is a small positive constant. A light's range must be positive, which the `[Min(0)]` attribute does not guarantee for 0.
- `Predator.Mantis.Update`: the mantis is assumed unrotated, so `Translate(Vector3.right …)` moves along world x.
- `Inertia.ComputeInertia.LinearAcceleration`: it requires a clock that never runs backwards (`ClockAfterWindow`). The 32-bit wrap-around of `positionSamplesTaken` after 2^31 calls is not modelled.
- `Inertia.ComputeInertia.constructor`: requires a non-negative `maxAcceleration`. `ClampMagnitude` with a negative limit is not modelled.
- `Boids.InsectBoid.ApplyRules`: when no light is registered the game throws a null reference exception in `RuleAttractedByLight`. The model returns no result, so `Update` leaves the insect unchanged.
- `Boids.LightAttraction`: steering aims at the chosen light's transform position, not at the offset point used to choose it, as the game does.
- Inspector-set values enter as constants with their default values, or as constructor parameters. Examples are `flightZoneRadius` and the ComputeInertia settings.
- The lemmas about `NextState`, the ends of the curves and the tie rule of the light choice are direct consequences of the definitions. They restate the promised properties in the game's terms rather than hold proof work of their own.

=== FILE: compute_inertia.dfy ===
/**
 * ComputeInertia: an estimate of an object's acceleration from the last few
 * positions it was seen at. Every frame the position and the time are pushed
 * into two fixed-length shift registers; once enough samples have been taken
 * the estimate is the mean change of speed between consecutive segments of
 * the window, divided by the time the window spans. The smoothed, clamped
 * estimate drives visual effects only.
 */
module Inertia {
  import opened Vectors
  import opened Wrappers

  /** The smallest window the estimator works with. */
  const MinSamples: int := 3

  /** The window size for a requested number of samples: anything below 3 counts as 3. */
  function EffectiveSamples(samples: int): (n: int)
    ensures n >= MinSamples
    ensures samples >= MinSamples ==> n == samples
    ensures samples < MinSamples ==> n == MinSamples
  {
    if samples < MinSamples then MinSamples else samples
  }

  /** The time stamps never decrease along the window. */
  predicate Sorted(ts: seq<real>) {
    forall i, j :: 0 <= i <= j < |ts| ==> ts[i] <= ts[j]
  }

  /** No two consecutive time stamps among the first k + 1 are equal. */
  predicate GapsNonZero(ts: seq<real>, k: nat)
    requires k < |ts|
  {
    forall j :: 0 <= j < k ==> ts[j + 1] - ts[j] != 0.0
  }

  /** The speed over segment i of the window: distance covered over time taken. */
  function Speed(ps: seq<Vec2>, ts: seq<real>, i: nat): Vec2
    requires i + 1 < |ps| == |ts| && ts[i + 1] - ts[i] != 0.0
  {
    Div2(Sub2(ps[i + 1], ps[i]), ts[i + 1] - ts[i])
  }

  /** The sum, over the first n pairs of consecutive segments, of the later speed minus the earlier. */
  function SpeedChanges(ps: seq<Vec2>, ts: seq<real>, n: nat): Vec2
    requires n + 2 <= |ps| == |ts|
    requires n > 0 ==> GapsNonZero(ts, n + 1)
  {
    if n == 0 then Zero2
    else Add2(SpeedChanges(ps, ts, n - 1), Sub2(Speed(ps, ts, n), Speed(ps, ts, n - 1)))
  }

  /** The sum of speed changes telescopes: it is the last speed counted minus the first. */
  lemma {:induction false} SpeedChangesTelescope(ps: seq<Vec2>, ts: seq<real>, n: nat)
    requires 1 <= n && n + 2 <= |ps| == |ts| && GapsNonZero(ts, n + 1)
    ensures SpeedChanges(ps, ts, n) == Sub2(Speed(ps, ts, n), Speed(ps, ts, 0))
  {
    if n > 1 {
      SpeedChangesTelescope(ps, ts, n - 1);
    }
  }

  /** In a sorted window without equal consecutive stamps, the window spans a positive time. */
  lemma SpanPositive(ts: seq<real>)
    requires |ts| >= 2 && Sorted(ts) && GapsNonZero(ts, |ts| - 1)
    ensures ts[|ts| - 1] - ts[0] > 0.0
  {
    assert ts[1] - ts[0] != 0.0;
    assert ts[0] <= ts[1] <= ts[|ts| - 1];
  }

  /**
   * The estimate over a full window: none when two consecutive stamps are
   * equal, otherwise the mean of the |window| - 2 speed changes divided by
   * the time the window spans.
   */
  function Estimate(ps: seq<Vec2>, ts: seq<real>): (r: Option<Vec2>)
    requires |ps| == |ts| >= MinSamples && Sorted(ts)
    ensures r.Some? <==> GapsNonZero(ts, |ts| - 1)
  {
    if !GapsNonZero(ts, |ts| - 1) then None
    else
      var n := |ps| - 2;
      var averageSpeedChange := Div2(SpeedChanges(ps, ts, n), n as real);
      SpanPositive(ts);
      Some(Div2(averageSpeedChange, ts[|ts| - 1] - ts[0]))
  }

  /**
   * Only the first and the last segment matter: the estimate is the change
   * from the first speed to the last, over |window| - 2, over the span.
   */
  lemma EstimateFromEnds(ps: seq<Vec2>, ts: seq<real>)
    requires |ps| == |ts| >= MinSamples && Sorted(ts) && GapsNonZero(ts, |ts| - 1)
    ensures ts[|ts| - 1] - ts[0] > 0.0
    ensures Estimate(ps, ts) ==
      Some(Div2(Div2(Sub2(Speed(ps, ts, |ps| - 2), Speed(ps, ts, 0)), (|ps| - 2) as real), ts[|ts| - 1] - ts[0]))
  {
    SpanPositive(ts);
    SpeedChangesTelescope(ps, ts, |ps| - 2);
  }

  /** An object that moves at the same speed over the first and the last segment has no acceleration. */
  lemma SteadyMotionHasNoAcceleration(ps: seq<Vec2>, ts: seq<real>)
    requires |ps| == |ts| >= MinSamples && Sorted(ts) && GapsNonZero(ts, |ts| - 1)
    requires Speed(ps, ts, |ps| - 2) == Speed(ps, ts, 0)
    ensures Estimate(ps, ts) == Some(Zero2)
  {
    EstimateFromEnds(ps, ts);
    var n := (|ps| - 2) as real;
    assert Sub2(Speed(ps, ts, |ps| - 2), Speed(ps, ts, 0)) == Zero2;
    assert Div2(Zero2, n) == Zero2;
    assert Div2(Zero2, ts[|ts| - 1] - ts[0]) == Zero2;
  }

  /** The window is shifted one slot towards the start and `x` enters at the end. */
  function ShiftIn<T>(window: seq<T>, x: T): (r: seq<T>)
    requires window != []
    ensures |r| == |window| && r[|r| - 1] == x
    ensures forall i :: 0 <= i < |r| - 1 ==> r[i] == window[i + 1]
  {
    window[1..] + [x]
  }

  /** Shifting in a stamp no earlier than the newest keeps the window sorted. */
  lemma ShiftInSorted(ts: seq<real>, now: real)
    requires ts != [] && Sorted(ts) && now >= ts[|ts| - 1]
    ensures Sorted(ShiftIn(ts, now))
  {
  }

  /** `len` is the length of every vector `magnitude` is given. */
  ghost predicate EuclideanLength(magnitude: Vec2 -> real) {
    forall v :: IsLength(magnitude(v), SqrMag2(v))
  }

  class ComputeInertia {
    const sampleCount: int
    const accelerationSmooth: real
    const maxAcceleration: real
    /** The two registers; null until the first call allocates them. */
    var positionRegister: array?<Vec2>
    var posTimeRegister: array?<real>
    var positionSamplesTaken: nat
    var acceleration: Vec2
    var refAcceleration: Vec2

    /**
     * The registers exist together, have the same length of at least 3, and
     * hold time stamps that never decrease and are never negative.
     */
    ghost predicate Valid()
      reads this, positionRegister, posTimeRegister
    {
      maxAcceleration >= 0.0 &&
      (positionRegister == null <==> posTimeRegister == null) &&
      (positionRegister != null ==>
        positionRegister.Length == posTimeRegister.Length >= MinSamples &&
        Sorted(posTimeRegister[..]) && posTimeRegister[0] >= 0.0)
    }

    constructor (sampleCount: int, accelerationSmooth: real, maxAcceleration: real)
      requires maxAcceleration >= 0.0
      ensures Valid()
      ensures this.sampleCount == sampleCount && this.accelerationSmooth == accelerationSmooth
      ensures this.maxAcceleration == maxAcceleration
      ensures positionRegister == null && positionSamplesTaken == 0
      ensures acceleration == Zero2 && refAcceleration == Zero2
    {
      this.sampleCount := sampleCount;
      this.accelerationSmooth := accelerationSmooth;
      this.maxAcceleration := maxAcceleration;
      positionRegister := null;
      posTimeRegister := null;
      positionSamplesTaken := 0;
      acceleration := Zero2;
      refAcceleration := Zero2;
    }

    /** The time the clock reads is never before the newest stamp in the window. */
    predicate ClockAfterWindow(now: real)
      reads this, posTimeRegister
    {
      now >= 0.0 && (posTimeRegister != null && posTimeRegister.Length > 0 ==> now >= posTimeRegister[posTimeRegister.Length - 1])
    }

    /**
     * LinearAcceleration: the first call allocates both registers with the
     * effective window size; every call shifts the position and the time
     * `now` in and counts a sample. The result is false with a zero vector
     * while fewer samples than the effective window size have been taken or
     * when two consecutive stamps are equal, and otherwise true with the
     * estimate over the window.
     */
    method LinearAcceleration(position: Vec2, now: real, samples: int) returns (ok: bool, vector: Vec2)
      requires Valid() && ClockAfterWindow(now)
      modifies this, positionRegister, posTimeRegister
      ensures Valid() && positionRegister != null
      ensures old(positionRegister) == null ==>
        fresh(positionRegister) && fresh(posTimeRegister) && positionRegister.Length == EffectiveSamples(samples) &&
        positionRegister[..] == ShiftIn(seq(positionRegister.Length, _ => Zero2), position) &&
        posTimeRegister[..] == ShiftIn(seq(posTimeRegister.Length, _ => 0.0), now)
      ensures old(positionRegister) != null ==>
        positionRegister == old(positionRegister) && posTimeRegister == old(posTimeRegister) &&
        positionRegister[..] == ShiftIn(old(positionRegister[..]), position) &&
        posTimeRegister[..] == ShiftIn(old(posTimeRegister[..]), now)
      ensures positionSamplesTaken == old(positionSamplesTaken) + 1
      ensures var estimate := Estimate(positionRegister[..], posTimeRegister[..]);
        (ok <==> positionSamplesTaken >= EffectiveSamples(samples) && estimate.Some?) &&
        vector == (if ok then estimate.value else Zero2)
      ensures acceleration == old(acceleration) && refAcceleration == old(refAcceleration)
    {
      vector := Zero2;
      var n := EffectiveSamples(samples);
      if positionRegister == null {
        positionRegister := new Vec2[n](_ => Zero2);
        posTimeRegister := new real[n](_ => 0.0);
        assert positionRegister[..] == seq(n, _ => Zero2);
        assert posTimeRegister[..] == seq(n, _ => 0.0);
      }
      var ps, ts := positionRegister, posTimeRegister;
      ghost var oldPs, oldTs := ps[..], ts[..];
      Shift(ps, ts, position, now);
      ShiftInSorted(oldTs, now);
      positionSamplesTaken := positionSamplesTaken + 1;

      if positionSamplesTaken < n {
        return false, Zero2;
      }
      ok, vector := AverageSpeedChange(ps, ts);
    }

    /**
     * The second loop of LinearAcceleration, over a full window: the speed
     * changes of consecutive segments are summed, stopping with false and a
     * zero vector at the first pair of equal consecutive stamps; the sum is
     * divided by their number and by the time the window spans.
     */
    static method AverageSpeedChange(ps: array<Vec2>, ts: array<real>) returns (ok: bool, vector: Vec2)
      requires ps.Length == ts.Length >= MinSamples && Sorted(ts[..])
      ensures ok <==> Estimate(ps[..], ts[..]).Some?
      ensures vector == (if ok then Estimate(ps[..], ts[..]).value else Zero2)
    {
      ghost var window, stamps := ps[..], ts[..];
      var averageSpeedChange := Zero2;
      var i := 0;
      while i < ps.Length - 2
        invariant 0 <= i <= ps.Length - 2
        invariant i > 0 ==> GapsNonZero(stamps, i + 1)
        invariant averageSpeedChange == SpeedChanges(window, stamps, i)
      {
        var deltaDistance := Sub2(ps[i + 1], ps[i]);
        var deltaTime := ts[i + 1] - ts[i];
        if deltaTime == 0.0 {
          assert stamps[i + 1] - stamps[i] == 0.0;
          return false, Zero2;
        }
        var speedA := Div2(deltaDistance, deltaTime);
        deltaDistance := Sub2(ps[i + 2], ps[i + 1]);
        deltaTime := ts[i + 2] - ts[i + 1];
        if deltaTime == 0.0 {
          assert stamps[i + 2] - stamps[i + 1] == 0.0;
          return false, Zero2;
        }
        var speedB := Div2(deltaDistance, deltaTime);
        assert speedA == Speed(window, stamps, i) && speedB == Speed(window, stamps, i + 1);
        averageSpeedChange := Add2(averageSpeedChange, Sub2(speedB, speedA));
        i := i + 1;
      }
      averageSpeedChange := Div2(averageSpeedChange, (ps.Length - 2) as real);
      SpanPositive(stamps);
      var deltaTimeTotal := ts[ts.Length - 1] - ts[0];
      vector := Div2(averageSpeedChange, deltaTimeTotal);
      return true, vector;
    }

    /**
     * The two shift loops of LinearAcceleration: every slot takes the value
     * of the next one, and the last slot takes the new position and time.
     */
    static method Shift(ps: array<Vec2>, ts: array<real>, position: Vec2, now: real)
      requires ps.Length == ts.Length >= 1
      modifies ps, ts
      ensures ps[..] == ShiftIn(old(ps[..]), position)
      ensures ts[..] == ShiftIn(old(ts[..]), now)
    {
      for i := 0 to ps.Length - 1
        invariant forall j :: 0 <= j < i ==> ps[j] == old(ps[j + 1]) && ts[j] == old(ts[j + 1])
        invariant forall j :: i <= j < ps.Length ==> ps[j] == old(ps[j]) && ts[j] == old(ts[j])
      {
        ps[i] := ps[i + 1];
        ts[i] := ts[i + 1];
      }
      ps[ps.Length - 1] := position;
      ts[ts.Length - 1] := now;
    }

    /**
     * Update: the new estimate (zero when there is none) is followed through
     * SmoothDamp and the result is clamped to maxAcceleration.
     * `smoothDamp(current, target, velocity, smoothTime)` is
     * Vector2.SmoothDamp returning the new value and the new velocity, and
     * `magnitude` is Vector2.magnitude.
     */
    method Update(position: Vec2, now: real, smoothDamp: (Vec2, Vec2, Vec2, real) -> (Vec2, Vec2),
                  magnitude: Vec2 -> real)
      requires Valid() && ClockAfterWindow(now) && EuclideanLength(magnitude)
      modifies this, positionRegister, posTimeRegister
      ensures Valid() && positionRegister != null
      ensures SqrMag2(acceleration) <= maxAcceleration * maxAcceleration
      ensures positionSamplesTaken == old(positionSamplesTaken) + 1
      ensures var estimate := Estimate(positionRegister[..], posTimeRegister[..]);
        var newAcceleration :=
          if positionSamplesTaken >= EffectiveSamples(sampleCount) && estimate.Some? then estimate.value else Zero2;
        var (smoothed, velocity) := smoothDamp(old(acceleration), newAcceleration, old(refAcceleration), accelerationSmooth);
        refAcceleration == velocity &&
        acceleration == ClampMagnitude2(smoothed, maxAcceleration, magnitude(smoothed))
    {
      var ok, newAcceleration := LinearAcceleration(position, now, sampleCount);
      var (smoothed, velocity) := smoothDamp(acceleration, newAcceleration, refAcceleration, accelerationSmooth);
      refAcceleration := velocity;
      acceleration := ClampMagnitude2(smoothed, maxAcceleration, magnitude(smoothed));
    }
  }
}

=== FILE: curves.dfy ===
/**
 * The polynomial and piecewise-polynomial easing curves of the Curves class.
 * Every curve maps (start, end, t) to a value; the class documents that a curve
 * returns `start` at t = 0 and `end` at t = 1. The Vector2 and Vector3
 * overloads (suffix V2 and V3 here) apply the float curve to each component.
 */
module Curves {
  import opened Mathf
  import opened Vectors

  /** Smoothstep through Mathf.Lerp, which clamps the smoothstep value to [0, 1]. */
  function Hermite(start: real, end: real, t: real): (r: real)
    ensures Min(start, end) <= r <= Max(start, end)
  {
    Lerp(start, end, t * t * (3.0 - 2.0 * t))
  }

  function QuadEaseIn(start: real, end: real, t: real): real
  {
    (end - start) * t * t + start
  }

  function QuadEaseOut(start: real, end: real, t: real): real
  {
    -(end - start) * t * (t - 2.0) + start
  }

  function QuadEaseInOut(start: real, end: real, t: real): real
  {
    var t2 := t * 2.0;
    if t2 < 1.0 then (end - start) / 2.0 * t2 * t2 + start
    else
      var u := t2 - 1.0;
      -(end - start) / 2.0 * (u * (u - 2.0) - 1.0) + start
  }

  function CubicEaseIn(start: real, end: real, t: real): real
  {
    (end - start) * t * t * t + start
  }

  function CubicEaseOut(start: real, end: real, t: real): real
  {
    var u := t - 1.0;
    (end - start) * (u * u * u + 1.0) + start
  }

  function CubicEaseInOut(start: real, end: real, t: real): real
  {
    var t2 := t * 2.0;
    if t2 < 1.0 then (end - start) / 2.0 * t2 * t2 * t2 + start
    else
      var u := t2 - 2.0;
      (end - start) / 2.0 * (u * u * u + 2.0) + start
  }

  function QuartEaseIn(start: real, end: real, t: real): real
  {
    (end - start) * t * t * t * t + start
  }

  function QuartEaseOut(start: real, end: real, t: real): real
  {
    var u := t - 1.0;
    -(end - start) * (u * u * u * u - 1.0) + start
  }

  function QuartEaseInOut(start: real, end: real, t: real): real
  {
    var t2 := t * 2.0;
    if t2 < 1.0 then (end - start) / 2.0 * t2 * t2 * t2 * t2 + start
    else
      var u := t2 - 2.0;
      -(end - start) / 2.0 * (u * u * u * u - 2.0) + start
  }

  function QuintEaseIn(start: real, end: real, t: real): real
  {
    (end - start) * t * t * t * t * t + start
  }

  function QuintEaseOut(start: real, end: real, t: real): real
  {
    var u := t - 1.0;
    (end - start) * (u * u * u * u * u + 1.0) + start
  }

  function QuintEaseInOut(start: real, end: real, t: real): real
  {
    var t2 := t * 2.0;
    if t2 < 1.0 then (end - start) / 2.0 * t2 * t2 * t2 * t2 * t2 + start
    else
      var u := t2 - 2.0;
      (end - start) / 2.0 * (u * u * u * u * u + 2.0) + start
  }

  /** Four parabolic arcs; the last one ends exactly at 1 because 2.75 * 2.75 == 7.5625. */
  function BounceEaseOut(start: real, end: real, t: real): real
  {
    var e := end - start;
    if t < 1.0 / 2.75 then e * (7.5625 * t * t) + start
    else if t < 2.0 / 2.75 then
      var u := t - 1.5 / 2.75;
      e * (7.5625 * u * u + 0.75) + start
    else if t < 2.5 / 2.75 then
      var u := t - 2.25 / 2.75;
      e * (7.5625 * u * u + 0.9375) + start
    else
      var u := t - 2.625 / 2.75;
      e * (7.5625 * u * u + 0.984375) + start
  }

  /** BounceEaseOut played backwards. */
  function BounceEaseIn(start: real, end: real, t: real): real
  {
    var e := end - start;
    e - BounceEaseOut(0.0, e, 1.0 - t) + start
  }

  function BounceEaseInOut(start: real, end: real, t: real): real
  {
    var e := end - start;
    if t < 0.5 then BounceEaseIn(0.0, e, t * 2.0) * 0.5 + start
    else BounceEaseOut(0.0, e, t * 2.0 - 1.0) * 0.5 + e * 0.5 + start
  }

  /** On [0, 1] the quadratic ease-in never leaves the segment between its ends. */
  lemma QuadEaseInInRange(start: real, end: real, t: real)
    requires 0.0 <= t <= 1.0
    ensures Min(start, end) <= QuadEaseIn(start, end, t) <= Max(start, end)
  {
    var c := t * t;
    MulAtMostOne(t, t);
    assert QuadEaseIn(start, end, t) == start + (end - start) * c;
    FactorBetween(start, end, c);
  }

  /** On [0, 1] the quadratic ease-out never leaves the segment between its ends. */
  lemma QuadEaseOutInRange(start: real, end: real, t: real)
    requires 0.0 <= t <= 1.0
    ensures Min(start, end) <= QuadEaseOut(start, end, t) <= Max(start, end)
  {
    var v := 1.0 - t;
    var c := 1.0 - v * v;
    MulAtMostOne(v, v);
    assert QuadEaseOut(start, end, t) == start + (end - start) * c;
    FactorBetween(start, end, c);
  }

  /** On [0, 1] the cubic ease-in never leaves the segment between its ends. */
  lemma CubicEaseInInRange(start: real, end: real, t: real)
    requires 0.0 <= t <= 1.0
    ensures Min(start, end) <= CubicEaseIn(start, end, t) <= Max(start, end)
  {
    var c := t * t * t;
    MulAtMostOne(t, t);
    MulAtMostOne(t * t, t);
    assert CubicEaseIn(start, end, t) == start + (end - start) * c;
    FactorBetween(start, end, c);
  }

  /** On [0, 1] the cubic ease-out never leaves the segment between its ends. */
  lemma CubicEaseOutInRange(start: real, end: real, t: real)
    requires 0.0 <= t <= 1.0
    ensures Min(start, end) <= CubicEaseOut(start, end, t) <= Max(start, end)
  {
    var v := 1.0 - t;
    var c := 1.0 - v * v * v;
    MulAtMostOne(v, v);
    MulAtMostOne(v * v, v);
    var u := t - 1.0;
    assert u * u * u == -(v * v * v);
    assert CubicEaseOut(start, end, t) == start + (end - start) * c;
    FactorBetween(start, end, c);
  }

  /** The overshoot constant of the Back curves. */
  const BackOvershoot: real := 1.70158

  function BackEaseIn(start: real, end: real, t: real): real
  {
    var e := end - start;
    var s := BackOvershoot;
    e * t * t * ((s + 1.0) * t - s) + start
  }

  function BackEaseOut(start: real, end: real, t: real): real
  {
    var s := BackOvershoot;
    var e := end - start;
    var u := t - 1.0;
    e * (u * u * ((s + 1.0) * u + s) + 1.0) + start
  }

  function BackEaseInOut(start: real, end: real, t: real): real
  {
    var e := end - start;
    var t2 := t / 0.5;
    var s := BackOvershoot * 1.525;
    if t2 < 1.0 then e * 0.5 * (t2 * t2 * ((s + 1.0) * t2 - s)) + start
    else
      var u := t2 - 2.0;
      e * 0.5 * (u * u * ((s + 1.0) * u + s) + 2.0) + start
  }

  /**
   * The cubic Bezier with handle positions: the coefficients are the x and y of
   * the start handle and of the end handle, in that order.
   */
  function Bezier(start: real, startHandle: Vec2, end: real, endHandle: Vec2, t: real): real
  {
    var u := 1.0 - t;
    var b := (u * u * u) * startHandle.x + 3.0 * (u * u) * t * startHandle.y
           + 3.0 * u * (t * t) * endHandle.x + (t * t * t) * endHandle.y;
    (end - start) * b + start
  }

  /** The cubic Bezier with vertical handle weights and flat ends. */
  function BezierWeighted(start: real, startWeight: real, end: real, endWeight: real, t: real): real
  {
    var u := 1.0 - t;
    var b := 3.0 * (u * u) * t * startWeight + (t * t * t) * endWeight;
    (end - start) * b + start
  }

  /** With the start handle at 0 and the end handle at 1 the handle Bezier does run from start to end. */
  lemma BezierHandlesSpanEnds(start: real, end: real, startHandle: Vec2, endHandle: Vec2)
    requires startHandle.x == 0.0 && endHandle.y == 1.0
    ensures Bezier(start, startHandle, end, endHandle, 0.0) == start
    ensures Bezier(start, startHandle, end, endHandle, 1.0) == end
  {
    BezierEnds(start, startHandle, end, endHandle);
  }

  /** The Vector2 overload of SinEaseIn applies QuadEaseIn to each component, not SinEaseIn. */
  function SinEaseInV2(vec: Vec2, end: Vec2, t: real): (r: Vec2)
    ensures t == 0.0 ==> r == vec
    ensures t == 1.0 ==> r == end
    ensures 0.0 <= t <= 1.0 ==>
      Min(vec.x, end.x) <= r.x <= Max(vec.x, end.x) && Min(vec.y, end.y) <= r.y <= Max(vec.y, end.y)
    ensures r == QuadEaseInV2(vec, end, t)
  {
    if 0.0 <= t <= 1.0 then
      QuadEaseInInRange(vec.x, end.x, t);
      QuadEaseInInRange(vec.y, end.y, t);
      Vec2(QuadEaseIn(vec.x, end.x, t), QuadEaseIn(vec.y, end.y, t))
    else
      Vec2(QuadEaseIn(vec.x, end.x, t), QuadEaseIn(vec.y, end.y, t))
  }


  function HermiteV2(start: Vec2, end: Vec2, t: real): (r: Vec2)
    ensures Min(start.x, end.x) <= r.x <= Max(start.x, end.x)
    ensures Min(start.y, end.y) <= r.y <= Max(start.y, end.y)
  {
    Vec2(Hermite(start.x, end.x, t), Hermite(start.y, end.y, t))
  }

  function HermiteV3(start: Vec3, end: Vec3, t: real): (r: Vec3)
    ensures Min(start.x, end.x) <= r.x <= Max(start.x, end.x)
    ensures Min(start.y, end.y) <= r.y <= Max(start.y, end.y)
    ensures Min(start.z, end.z) <= r.z <= Max(start.z, end.z)
  {
    Vec3(Hermite(start.x, end.x, t), Hermite(start.y, end.y, t), Hermite(start.z, end.z, t))
  }

  function QuadEaseInV2(vec: Vec2, end: Vec2, t: real): Vec2
  {
    Vec2(QuadEaseIn(vec.x, end.x, t), QuadEaseIn(vec.y, end.y, t))
  }

  function QuadEaseInV3(vec: Vec3, end: Vec3, t: real): Vec3
  {
    Vec3(QuadEaseIn(vec.x, end.x, t), QuadEaseIn(vec.y, end.y, t), QuadEaseIn(vec.z, end.z, t))
  }

  function QuadEaseOutV2(vec: Vec2, end: Vec2, t: real): Vec2
  {
    Vec2(QuadEaseOut(vec.x, end.x, t), QuadEaseOut(vec.y, end.y, t))
  }

  function QuadEaseOutV3(vec: Vec3, end: Vec3, t: real): Vec3
  {
    Vec3(QuadEaseOut(vec.x, end.x, t), QuadEaseOut(vec.y, end.y, t), QuadEaseOut(vec.z, end.z, t))
  }

  function QuadEaseInOutV2(vec: Vec2, end: Vec2, t: real): Vec2
  {
    Vec2(QuadEaseInOut(vec.x, end.x, t), QuadEaseInOut(vec.y, end.y, t))
  }

  function QuadEaseInOutV3(vec: Vec3, end: Vec3, t: real): Vec3
  {
    Vec3(QuadEaseInOut(vec.x, end.x, t), QuadEaseInOut(vec.y, end.y, t), QuadEaseInOut(vec.z, end.z, t))
  }

  function CubicEaseInV2(vec: Vec2, end: Vec2, t: real): Vec2
  {
    Vec2(CubicEaseIn(vec.x, end.x, t), CubicEaseIn(vec.y, end.y, t))
  }

  function CubicEaseInV3(vec: Vec3, end: Vec3, t: real): Vec3
  {
    Vec3(CubicEaseIn(vec.x, end.x, t), CubicEaseIn(vec.y, end.y, t), CubicEaseIn(vec.z, end.z, t))
  }

  function CubicEaseOutV2(vec: Vec2, end: Vec2, t: real): Vec2
  {
    Vec2(CubicEaseOut(vec.x, end.x, t), CubicEaseOut(vec.y, end.y, t))
  }

  function CubicEaseOutV3(vec: Vec3, end: Vec3, t: real): Vec3
  {
    Vec3(CubicEaseOut(vec.x, end.x, t), CubicEaseOut(vec.y, end.y, t), CubicEaseOut(vec.z, end.z, t))
  }

  function CubicEaseInOutV2(vec: Vec2, end: Vec2, t: real): Vec2
  {
    Vec2(CubicEaseInOut(vec.x, end.x, t), CubicEaseInOut(vec.y, end.y, t))
  }

  function CubicEaseInOutV3(vec: Vec3, end: Vec3, t: real): Vec3
  {
    Vec3(CubicEaseInOut(vec.x, end.x, t), CubicEaseInOut(vec.y, end.y, t), CubicEaseInOut(vec.z, end.z, t))
  }

  function QuartEaseInV2(vec: Vec2, end: Vec2, t: real): Vec2
  {
    Vec2(QuartEaseIn(vec.x, end.x, t), QuartEaseIn(vec.y, end.y, t))
  }

  function QuartEaseInV3(vec: Vec3, end: Vec3, t: real): Vec3
  {
    Vec3(QuartEaseIn(vec.x, end.x, t), QuartEaseIn(vec.y, end.y, t), QuartEaseIn(vec.z, end.z, t))
  }

  function QuartEaseOutV2(vec: Vec2, end: Vec2, t: real): Vec2
  {
    Vec2(QuartEaseOut(vec.x, end.x, t), QuartEaseOut(vec.y, end.y, t))
  }

  function QuartEaseOutV3(vec: Vec3, end: Vec3, t: real): Vec3
  {
    Vec3(QuartEaseOut(vec.x, end.x, t), QuartEaseOut(vec.y, end.y, t), QuartEaseOut(vec.z, end.z, t))
  }

  function QuartEaseInOutV2(vec: Vec2, end: Vec2, t: real): Vec2
  {
    Vec2(QuartEaseInOut(vec.x, end.x, t), QuartEaseInOut(vec.y, end.y, t))
  }

  function QuartEaseInOutV3(vec: Vec3, end: Vec3, t: real): Vec3
  {
    Vec3(QuartEaseInOut(vec.x, end.x, t), QuartEaseInOut(vec.y, end.y, t), QuartEaseInOut(vec.z, end.z, t))
  }

  function QuintEaseInV2(vec: Vec2, end: Vec2, t: real): Vec2
  {
    Vec2(QuintEaseIn(vec.x, end.x, t), QuintEaseIn(vec.y, end.y, t))
  }

  function QuintEaseInV3(vec: Vec3, end: Vec3, t: real): Vec3
  {
    Vec3(QuintEaseIn(vec.x, end.x, t), QuintEaseIn(vec.y, end.y, t), QuintEaseIn(vec.z, end.z, t))
  }

  function QuintEaseOutV2(vec: Vec2, end: Vec2, t: real): Vec2
  {
    Vec2(QuintEaseOut(vec.x, end.x, t), QuintEaseOut(vec.y, end.y, t))
  }

  function QuintEaseOutV3(vec: Vec3, end: Vec3, t: real): Vec3
  {
    Vec3(QuintEaseOut(vec.x, end.x, t), QuintEaseOut(vec.y, end.y, t), QuintEaseOut(vec.z, end.z, t))
  }

  function QuintEaseInOutV2(vec: Vec2, end: Vec2, t: real): Vec2
  {
    Vec2(QuintEaseInOut(vec.x, end.x, t), QuintEaseInOut(vec.y, end.y, t))
  }

  function QuintEaseInOutV3(vec: Vec3, end: Vec3, t: real): Vec3
  {
    Vec3(QuintEaseInOut(vec.x, end.x, t), QuintEaseInOut(vec.y, end.y, t), QuintEaseInOut(vec.z, end.z, t))
  }

  function BounceEaseInV2(vec: Vec2, end: Vec2, t: real): Vec2
  {
    Vec2(BounceEaseIn(vec.x, end.x, t), BounceEaseIn(vec.y, end.y, t))
  }

  function BounceEaseInV3(vec: Vec3, end: Vec3, t: real): Vec3
  {
    Vec3(BounceEaseIn(vec.x, end.x, t), BounceEaseIn(vec.y, end.y, t), BounceEaseIn(vec.z, end.z, t))
  }

  function BounceEaseOutV2(vec: Vec2, end: Vec2, t: real): Vec2
  {
    Vec2(BounceEaseOut(vec.x, end.x, t), BounceEaseOut(vec.y, end.y, t))
  }

  function BounceEaseOutV3(vec: Vec3, end: Vec3, t: real): Vec3
  {
    Vec3(BounceEaseOut(vec.x, end.x, t), BounceEaseOut(vec.y, end.y, t), BounceEaseOut(vec.z, end.z, t))
  }

  function BounceEaseInOutV2(vec: Vec2, end: Vec2, t: real): Vec2
  {
    Vec2(BounceEaseInOut(vec.x, end.x, t), BounceEaseInOut(vec.y, end.y, t))
  }

  function BounceEaseInOutV3(vec: Vec3, end: Vec3, t: real): Vec3
  {
    Vec3(BounceEaseInOut(vec.x, end.x, t), BounceEaseInOut(vec.y, end.y, t), BounceEaseInOut(vec.z, end.z, t))
  }

  function BackEaseInV2(vec: Vec2, end: Vec2, t: real): Vec2
  {
    Vec2(BackEaseIn(vec.x, end.x, t), BackEaseIn(vec.y, end.y, t))
  }

  function BackEaseInV3(vec: Vec3, end: Vec3, t: real): Vec3
  {
    Vec3(BackEaseIn(vec.x, end.x, t), BackEaseIn(vec.y, end.y, t), BackEaseIn(vec.z, end.z, t))
  }

  function BackEaseOutV2(vec: Vec2, end: Vec2, t: real): Vec2
  {
    Vec2(BackEaseOut(vec.x, end.x, t), BackEaseOut(vec.y, end.y, t))
  }

  function BackEaseOutV3(vec: Vec3, end: Vec3, t: real): Vec3
  {
    Vec3(BackEaseOut(vec.x, end.x, t), BackEaseOut(vec.y, end.y, t), BackEaseOut(vec.z, end.z, t))
  }

  function BackEaseInOutV2(vec: Vec2, end: Vec2, t: real): Vec2
  {
    Vec2(BackEaseInOut(vec.x, end.x, t), BackEaseInOut(vec.y, end.y, t))
  }

  function BackEaseInOutV3(vec: Vec3, end: Vec3, t: real): Vec3
  {
    Vec3(BackEaseInOut(vec.x, end.x, t), BackEaseInOut(vec.y, end.y, t), BackEaseInOut(vec.z, end.z, t))
  }

  /** The smoothstep curve starts at `start` and ends at `end`. */
  lemma HermiteEnds(start: real, end: real)
    ensures Hermite(start, end, 0.0) == start
    ensures Hermite(start, end, 1.0) == end
  {
  }

  /** Each Quad curve starts at `start` and ends at `end`; the in-out one passes the midpoint halfway. */
  lemma QuadEnds(start: real, end: real)
    ensures QuadEaseIn(start, end, 0.0) == start
    ensures QuadEaseIn(start, end, 1.0) == end
    ensures QuadEaseOut(start, end, 0.0) == start
    ensures QuadEaseOut(start, end, 1.0) == end
    ensures QuadEaseInOut(start, end, 0.0) == start
    ensures QuadEaseInOut(start, end, 1.0) == end
    ensures QuadEaseInOut(start, end, 0.5) == (start + end) / 2.0
  {
  }

  /** Each Cubic curve starts at `start` and ends at `end`; the in-out one passes the midpoint halfway. */
  lemma CubicEnds(start: real, end: real)
    ensures CubicEaseIn(start, end, 0.0) == start
    ensures CubicEaseIn(start, end, 1.0) == end
    ensures CubicEaseOut(start, end, 0.0) == start
    ensures CubicEaseOut(start, end, 1.0) == end
    ensures CubicEaseInOut(start, end, 0.0) == start
    ensures CubicEaseInOut(start, end, 1.0) == end
    ensures CubicEaseInOut(start, end, 0.5) == (start + end) / 2.0
  {
  }

  /** Each Quart curve starts at `start` and ends at `end`; the in-out one passes the midpoint halfway. */
  lemma QuartEnds(start: real, end: real)
    ensures QuartEaseIn(start, end, 0.0) == start
    ensures QuartEaseIn(start, end, 1.0) == end
    ensures QuartEaseOut(start, end, 0.0) == start
    ensures QuartEaseOut(start, end, 1.0) == end
    ensures QuartEaseInOut(start, end, 0.0) == start
    ensures QuartEaseInOut(start, end, 1.0) == end
    ensures QuartEaseInOut(start, end, 0.5) == (start + end) / 2.0
  {
  }

  /** Each Quint curve starts at `start` and ends at `end`; the in-out one passes the midpoint halfway. */
  lemma QuintEnds(start: real, end: real)
    ensures QuintEaseIn(start, end, 0.0) == start
    ensures QuintEaseIn(start, end, 1.0) == end
    ensures QuintEaseOut(start, end, 0.0) == start
    ensures QuintEaseOut(start, end, 1.0) == end
    ensures QuintEaseInOut(start, end, 0.0) == start
    ensures QuintEaseInOut(start, end, 1.0) == end
    ensures QuintEaseInOut(start, end, 0.5) == (start + end) / 2.0
  {
  }

  /** Each Bounce curve starts at `start` and ends at `end`; the in-out one passes the midpoint halfway. */
  lemma BounceEnds(start: real, end: real)
    ensures BounceEaseIn(start, end, 0.0) == start
    ensures BounceEaseIn(start, end, 1.0) == end
    ensures BounceEaseOut(start, end, 0.0) == start
    ensures BounceEaseOut(start, end, 1.0) == end
    ensures BounceEaseInOut(start, end, 0.0) == start
    ensures BounceEaseInOut(start, end, 1.0) == end
    ensures BounceEaseInOut(start, end, 0.5) == (start + end) / 2.0
  {
  }

  /** Each Back curve starts at `start` and ends at `end`; the in-out one passes the midpoint halfway. */
  lemma BackEnds(start: real, end: real)
    ensures BackEaseIn(start, end, 0.0) == start
    ensures BackEaseIn(start, end, 1.0) == end
    ensures BackEaseOut(start, end, 0.0) == start
    ensures BackEaseOut(start, end, 1.0) == end
    ensures BackEaseInOut(start, end, 0.0) == start
    ensures BackEaseInOut(start, end, 1.0) == end
    ensures BackEaseInOut(start, end, 0.5) == (start + end) / 2.0
  {
  }

  /** The Vector2 overloads inherit the end points and midpoints of the float curves, component by component. */
  lemma EndsV2(start: Vec2, end: Vec2)
    ensures HermiteV2(start, end, 0.0) == start
    ensures HermiteV2(start, end, 1.0) == end
    ensures QuadEaseInV2(start, end, 0.0) == start
    ensures QuadEaseInV2(start, end, 1.0) == end
    ensures QuadEaseOutV2(start, end, 0.0) == start
    ensures QuadEaseOutV2(start, end, 1.0) == end
    ensures QuadEaseInOutV2(start, end, 0.0) == start
    ensures QuadEaseInOutV2(start, end, 1.0) == end
    ensures QuadEaseInOutV2(start, end, 0.5) == Vec2((start.x + end.x) / 2.0, (start.y + end.y) / 2.0)
    ensures CubicEaseInV2(start, end, 0.0) == start
    ensures CubicEaseInV2(start, end, 1.0) == end
    ensures CubicEaseOutV2(start, end, 0.0) == start
    ensures CubicEaseOutV2(start, end, 1.0) == end
    ensures CubicEaseInOutV2(start, end, 0.0) == start
    ensures CubicEaseInOutV2(start, end, 1.0) == end
    ensures CubicEaseInOutV2(start, end, 0.5) == Vec2((start.x + end.x) / 2.0, (start.y + end.y) / 2.0)
    ensures QuartEaseInV2(start, end, 0.0) == start
    ensures QuartEaseInV2(start, end, 1.0) == end
    ensures QuartEaseOutV2(start, end, 0.0) == start
    ensures QuartEaseOutV2(start, end, 1.0) == end
    ensures QuartEaseInOutV2(start, end, 0.0) == start
    ensures QuartEaseInOutV2(start, end, 1.0) == end
    ensures QuartEaseInOutV2(start, end, 0.5) == Vec2((start.x + end.x) / 2.0, (start.y + end.y) / 2.0)
    ensures QuintEaseInV2(start, end, 0.0) == start
    ensures QuintEaseInV2(start, end, 1.0) == end
    ensures QuintEaseOutV2(start, end, 0.0) == start
    ensures QuintEaseOutV2(start, end, 1.0) == end
    ensures QuintEaseInOutV2(start, end, 0.0) == start
    ensures QuintEaseInOutV2(start, end, 1.0) == end
    ensures QuintEaseInOutV2(start, end, 0.5) == Vec2((start.x + end.x) / 2.0, (start.y + end.y) / 2.0)
    ensures BounceEaseInV2(start, end, 0.0) == start
    ensures BounceEaseInV2(start, end, 1.0) == end
    ensures BounceEaseOutV2(start, end, 0.0) == start
    ensures BounceEaseOutV2(start, end, 1.0) == end
    ensures BounceEaseInOutV2(start, end, 0.0) == start
    ensures BounceEaseInOutV2(start, end, 1.0) == end
    ensures BounceEaseInOutV2(start, end, 0.5) == Vec2((start.x + end.x) / 2.0, (start.y + end.y) / 2.0)
    ensures BackEaseInV2(start, end, 0.0) == start
    ensures BackEaseInV2(start, end, 1.0) == end
    ensures BackEaseOutV2(start, end, 0.0) == start
    ensures BackEaseOutV2(start, end, 1.0) == end
    ensures BackEaseInOutV2(start, end, 0.0) == start
    ensures BackEaseInOutV2(start, end, 1.0) == end
    ensures BackEaseInOutV2(start, end, 0.5) == Vec2((start.x + end.x) / 2.0, (start.y + end.y) / 2.0)
  {
    HermiteEnds(start.x, end.x);
    HermiteEnds(start.y, end.y);
    QuadEnds(start.x, end.x);
    QuadEnds(start.y, end.y);
    CubicEnds(start.x, end.x);
    CubicEnds(start.y, end.y);
    QuartEnds(start.x, end.x);
    QuartEnds(start.y, end.y);
    QuintEnds(start.x, end.x);
    QuintEnds(start.y, end.y);
    BounceEnds(start.x, end.x);
    BounceEnds(start.y, end.y);
    BackEnds(start.x, end.x);
    BackEnds(start.y, end.y);
  }

  /** The Vector3 overloads inherit the end points and midpoints of the float curves, component by component. */
  lemma EndsV3(start: Vec3, end: Vec3)
    ensures HermiteV3(start, end, 0.0) == start
    ensures HermiteV3(start, end, 1.0) == end
    ensures QuadEaseInV3(start, end, 0.0) == start
    ensures QuadEaseInV3(start, end, 1.0) == end
    ensures QuadEaseOutV3(start, end, 0.0) == start
    ensures QuadEaseOutV3(start, end, 1.0) == end
    ensures QuadEaseInOutV3(start, end, 0.0) == start
    ensures QuadEaseInOutV3(start, end, 1.0) == end
    ensures QuadEaseInOutV3(start, end, 0.5) == Vec3((start.x + end.x) / 2.0, (start.y + end.y) / 2.0, (start.z + end.z) / 2.0)
    ensures CubicEaseInV3(start, end, 0.0) == start
    ensures CubicEaseInV3(start, end, 1.0) == end
    ensures CubicEaseOutV3(start, end, 0.0) == start
    ensures CubicEaseOutV3(start, end, 1.0) == end
    ensures CubicEaseInOutV3(start, end, 0.0) == start
    ensures CubicEaseInOutV3(start, end, 1.0) == end
    ensures CubicEaseInOutV3(start, end, 0.5) == Vec3((start.x + end.x) / 2.0, (start.y + end.y) / 2.0, (start.z + end.z) / 2.0)
    ensures QuartEaseInV3(start, end, 0.0) == start
    ensures QuartEaseInV3(start, end, 1.0) == end
    ensures QuartEaseOutV3(start, end, 0.0) == start
    ensures QuartEaseOutV3(start, end, 1.0) == end
    ensures QuartEaseInOutV3(start, end, 0.0) == start
    ensures QuartEaseInOutV3(start, end, 1.0) == end
    ensures QuartEaseInOutV3(start, end, 0.5) == Vec3((start.x + end.x) / 2.0, (start.y + end.y) / 2.0, (start.z + end.z) / 2.0)
    ensures QuintEaseInV3(start, end, 0.0) == start
    ensures QuintEaseInV3(start, end, 1.0) == end
    ensures QuintEaseOutV3(start, end, 0.0) == start
    ensures QuintEaseOutV3(start, end, 1.0) == end
    ensures QuintEaseInOutV3(start, end, 0.0) == start
    ensures QuintEaseInOutV3(start, end, 1.0) == end
    ensures QuintEaseInOutV3(start, end, 0.5) == Vec3((start.x + end.x) / 2.0, (start.y + end.y) / 2.0, (start.z + end.z) / 2.0)
    ensures BounceEaseInV3(start, end, 0.0) == start
    ensures BounceEaseInV3(start, end, 1.0) == end
    ensures BounceEaseOutV3(start, end, 0.0) == start
    ensures BounceEaseOutV3(start, end, 1.0) == end
    ensures BounceEaseInOutV3(start, end, 0.0) == start
    ensures BounceEaseInOutV3(start, end, 1.0) == end
    ensures BounceEaseInOutV3(start, end, 0.5) == Vec3((start.x + end.x) / 2.0, (start.y + end.y) / 2.0, (start.z + end.z) / 2.0)
    ensures BackEaseInV3(start, end, 0.0) == start
    ensures BackEaseInV3(start, end, 1.0) == end
    ensures BackEaseOutV3(start, end, 0.0) == start
    ensures BackEaseOutV3(start, end, 1.0) == end
    ensures BackEaseInOutV3(start, end, 0.0) == start
    ensures BackEaseInOutV3(start, end, 1.0) == end
    ensures BackEaseInOutV3(start, end, 0.5) == Vec3((start.x + end.x) / 2.0, (start.y + end.y) / 2.0, (start.z + end.z) / 2.0)
  {
    HermiteEnds(start.x, end.x);
    HermiteEnds(start.y, end.y);
    HermiteEnds(start.z, end.z);
    QuadEnds(start.x, end.x);
    QuadEnds(start.y, end.y);
    QuadEnds(start.z, end.z);
    CubicEnds(start.x, end.x);
    CubicEnds(start.y, end.y);
    CubicEnds(start.z, end.z);
    QuartEnds(start.x, end.x);
    QuartEnds(start.y, end.y);
    QuartEnds(start.z, end.z);
    QuintEnds(start.x, end.x);
    QuintEnds(start.y, end.y);
    QuintEnds(start.z, end.z);
    BounceEnds(start.x, end.x);
    BounceEnds(start.y, end.y);
    BounceEnds(start.z, end.z);
    BackEnds(start.x, end.x);
    BackEnds(start.y, end.y);
    BackEnds(start.z, end.z);
  }

  /** The handle Bezier starts at the start handle's x and ends at the end handle's y, as fractions of end - start. */
  lemma BezierEnds(start: real, startHandle: Vec2, end: real, endHandle: Vec2)
    ensures Bezier(start, startHandle, end, endHandle, 0.0) == (end - start) * startHandle.x + start
    ensures Bezier(start, startHandle, end, endHandle, 1.0) == (end - start) * endHandle.y + start
  {
  }

  /** The weighted Bezier starts at `start` and ends at the end weight's fraction of end - start. */
  lemma BezierWeightedEnds(start: real, startWeight: real, end: real, endWeight: real)
    ensures BezierWeighted(start, startWeight, end, endWeight, 0.0) == start
    ensures BezierWeighted(start, startWeight, end, endWeight, 1.0) == (end - start) * endWeight + start
  {
  }
}

=== FILE: difficulty.dfy ===
/**
 * DifficultyManager: a difficulty ramp over the first ninety seconds of a
 * level, and the tunables interpolated along it. The level time
 * (Time.timeSinceLevelLoad) is a parameter.
 */
module Difficulty {
  import opened Mathf

  /** Seconds after which the difficulty stays at its maximum. */
  const MaxDifficultyTime: real := 90.0

  const MantisAttackPreparationEasy: real := 5.0
  const MantisAttackPreparationHard: real := 5.0
  const MoskitoBaseMoveSpeedEasy: real := 0.2
  const MoskitoBaseMoveSpeedHard: real := 0.4
  const MantisSpawnIntervalEasy: real := 25.0
  const MantisSpawnIntervalHard: real := 15.0
  const MoskitoSpawnIntervalEasy: real := 25.0
  const MoskitoSpawnIntervalHard: real := 15.0

  /** The difficulty grows linearly from 0 at the level start to 1 after MaxDifficultyTime. */
  function Difficulty01(levelTime: real): (d: real)
    ensures 0.0 <= d <= 1.0
    ensures levelTime <= 0.0 ==> d == 0.0
    ensures levelTime >= MaxDifficultyTime ==> d == 1.0
    ensures 0.0 <= levelTime <= MaxDifficultyTime ==> d * MaxDifficultyTime == levelTime
  {
    Clamp01(levelTime / MaxDifficultyTime)
  }

  /** The difficulty never decreases as the level goes on. */
  lemma DifficultyMonotone(t1: real, t2: real)
    requires t1 <= t2
    ensures Difficulty01(t1) <= Difficulty01(t2)
  {
    assert t1 / MaxDifficultyTime <= t2 / MaxDifficultyTime;
  }

  /** Both ends are 5, so the preparation time never depends on the difficulty and is never 0. */
  function MantisAttackPreparation(levelTime: real): (r: real)
    ensures r == 5.0
    ensures r > 0.0
  {
    Lerp(MantisAttackPreparationEasy, MantisAttackPreparationHard, Difficulty01(levelTime))
  }

  function MoskitoBaseMoveSpeed(levelTime: real): (r: real)
    ensures MoskitoBaseMoveSpeedEasy <= r <= MoskitoBaseMoveSpeedHard
    ensures levelTime <= 0.0 ==> r == MoskitoBaseMoveSpeedEasy
    ensures levelTime >= MaxDifficultyTime ==> r == MoskitoBaseMoveSpeedHard
  {
    var d := Difficulty01(levelTime);
    Lerp(MoskitoBaseMoveSpeedEasy, MoskitoBaseMoveSpeedHard, d)
  }

  function MantisSpawnInterval(levelTime: real): (r: real)
    ensures MantisSpawnIntervalHard <= r <= MantisSpawnIntervalEasy
    ensures levelTime <= 0.0 ==> r == MantisSpawnIntervalEasy
    ensures levelTime >= MaxDifficultyTime ==> r == MantisSpawnIntervalHard
  {
    var d := Difficulty01(levelTime);
    Lerp(MantisSpawnIntervalEasy, MantisSpawnIntervalHard, d)
  }

  function MoskitoSpawnInterval(levelTime: real): (r: real)
    ensures MoskitoSpawnIntervalHard <= r <= MoskitoSpawnIntervalEasy
    ensures levelTime <= 0.0 ==> r == MoskitoSpawnIntervalEasy
    ensures levelTime >= MaxDifficultyTime ==> r == MoskitoSpawnIntervalHard
  {
    var d := Difficulty01(levelTime);
    Lerp(MoskitoSpawnIntervalEasy, MoskitoSpawnIntervalHard, d)
  }

  /** Mosquitoes only get faster as the level goes on. */
  lemma MoskitoSpeedNonDecreasing(t1: real, t2: real)
    requires t1 <= t2
    ensures MoskitoBaseMoveSpeed(t1) <= MoskitoBaseMoveSpeed(t2)
  {
    DifficultyMonotone(t1, t2);
    LerpMonotone(MoskitoBaseMoveSpeedEasy, MoskitoBaseMoveSpeedHard, Difficulty01(t1), Difficulty01(t2));
  }

  /** Mantises and mosquitoes only spawn more often as the level goes on. */
  lemma SpawnIntervalsNonIncreasing(t1: real, t2: real)
    requires t1 <= t2
    ensures MantisSpawnInterval(t2) <= MantisSpawnInterval(t1)
    ensures MoskitoSpawnInterval(t2) <= MoskitoSpawnInterval(t1)
  {
    DifficultyMonotone(t1, t2);
    LerpMonotone(MantisSpawnIntervalEasy, MantisSpawnIntervalHard, Difficulty01(t1), Difficulty01(t2));
    LerpMonotone(MoskitoSpawnIntervalEasy, MoskitoSpawnIntervalHard, Difficulty01(t1), Difficulty01(t2));
  }
}

=== FILE: facing.dfy ===
/**
 * The facing rule shared by mosquitoes and mantises: a creature faces left or
 * right, turns to follow the sign of its horizontal movement, and after a turn
 * keeps its facing for at least TurnInterval seconds.
 */
module Facing {

  datatype Direction = Left | Right

  /** Seconds that must pass after a turn before the next one. */
  const TurnInterval: real := 1.0

  /** The facing state: the direction and the time of the last turn. */
  datatype Heading = Heading(dir: Direction, lastTurnTime: real)

  /**
   * One call of Turn at time `now` with horizontal movement `signal`: nothing
   * happens before the interval has passed; afterwards a positive signal
   * makes the creature face right and a negative one left, and an actual
   * change of direction records `now` as the last turn time.
   */
  function Turn(h: Heading, now: real, signal: real): (g: Heading)
    ensures now < h.lastTurnTime + TurnInterval ==> g == h
    ensures signal == 0.0 ==> g == h
    ensures g != h ==> g.dir != h.dir && g.lastTurnTime == now
    ensures now >= h.lastTurnTime + TurnInterval && signal > 0.0 ==> g.dir == Right
    ensures now >= h.lastTurnTime + TurnInterval && signal < 0.0 ==> g.dir == Left
    ensures g == h || (signal > 0.0 && g.dir == Right) || (signal < 0.0 && g.dir == Left)
  {
    if now < h.lastTurnTime + TurnInterval then h
    else if signal > 0.0 && h.dir != Right then Heading(Right, now)
    else if signal < 0.0 && h.dir != Left then Heading(Left, now)
    else h
  }

  /** The times at which a run of Turn calls, each given as (now, signal), actually turned. */
  function TurnTimes(h: Heading, calls: seq<(real, real)>): seq<real>
    decreases |calls|
  {
    if calls == [] then []
    else
      var g := Turn(h, calls[0].0, calls[0].1);
      (if g != h then [calls[0].0] else []) + TurnTimes(g, calls[1..])
  }

  /** Each time is at least `earliest`, and consecutive times are at least TurnInterval apart. */
  predicate Spaced(times: seq<real>, earliest: real) {
    (times != [] ==> times[0] >= earliest) &&
    forall i :: 0 <= i < |times| - 1 ==> times[i] + TurnInterval <= times[i + 1]
  }

  lemma SpacedCons(t: real, rest: seq<real>, earliest: real)
    requires t >= earliest && Spaced(rest, t + TurnInterval)
    ensures Spaced([t] + rest, earliest)
  {
    var times := [t] + rest;
    forall i | 0 <= i < |times| - 1 ensures times[i] + TurnInterval <= times[i + 1] {
      if i > 0 {
        assert times[i] == rest[i - 1] && times[i + 1] == rest[i];
      }
    }
  }

  /**
   * However the clock and the movement behave, turns are at least
   * TurnInterval apart, and the first comes at least TurnInterval after the
   * last turn before the run.
   */
  lemma {:induction false} TurnsAreSpaced(h: Heading, calls: seq<(real, real)>)
    ensures Spaced(TurnTimes(h, calls), h.lastTurnTime + TurnInterval)
    decreases |calls|
  {
    if calls != [] {
      var g := Turn(h, calls[0].0, calls[0].1);
      TurnsAreSpaced(g, calls[1..]);
      if g != h {
        SpacedCons(calls[0].0, TurnTimes(g, calls[1..]), h.lastTurnTime + TurnInterval);
      }
    }
  }
}

=== FILE: insect_boid.dfy ===
/**
 * InsectBoid: a mosquito steered by four rules (cohesion with nearby
 * mosquitoes, separation from the ones too close and from the player,
 * attraction to the player and attraction to the most attractive light),
 * facing the way it moves and flying no faster than a speed limit that rises
 * near the player.
 *
 * Every enabled mosquito is registered in one shared list. A mosquito is
 * identified by an InsectId; the positions of the others are given as a map.
 * The engine's Vector3.Distance is the parameter `distance`, the
 * `normalized` vector (and a vector divided by its own magnitude) is the
 * parameter `direction`, and the sigmoid P is the parameter `proximity`.
 */
module Boids {
  import opened Mathf
  import opened Vectors
  import opened Wrappers
  import Facing
  import Lights
  import Lists

  type InsectId = nat

  /** Tunables, with the values the component declares. */
  const PlayerProximityZoneRadius: real := 5.0
  const FlockingMaxDistance: real := 2.0
  const MaxVelocityBase: real := 0.2
  const MaxVelocityPlayerNear: real := 3.5
  const VelocitySmooth: real := 0.2
  const WeightCohesionBase: real := 0.5
  const WeightCohesionPlayerNear: real := 5.0
  const WeightSeparationBase: real := 2.0
  const WeightSeparationPlayerNear: real := 0.0
  const WeightLightAttraction: real := 3.0
  const WeightPlayerAttraction: real := 6.0

  /** Below this distance to the player, the player no longer attracts. */
  const SwitchPlayerAttractionDist: real := 0.75
  /** Neighbours (and the player) closer than this do not repel. */
  const MinSeparationDistance: real := 0.001
  /** Mathf.Epsilon, the smallest positive single-precision value. */
  const Epsilon: real := 1.401298e-45

  /**
   * A rule weight that grows near the player: `proximity` is P(distance to
   * the player), a sigmoid in (0, 1). With no near-player multiplier the
   * weight is the base weight whatever the distance.
   */
  function CombineWeight(mult1: real, mult2: real, proximity: real): (w: real)
    ensures mult2 == 0.0 ==> w == mult1
  {
    mult1 * (1.0 + proximity * mult2)
  }

  /** With non-negative multipliers, a weight stays between mult1 and mult1 * (1 + mult2). */
  lemma CombineWeightBounds(mult1: real, mult2: real, proximity: real)
    requires mult1 >= 0.0 && mult2 >= 0.0 && 0.0 <= proximity <= 1.0
    ensures mult1 <= CombineWeight(mult1, mult2, proximity) <= mult1 * (1.0 + mult2)
  {
    var x := proximity * mult2;
    ScaleWithin(mult2, proximity);
    assert mult2 * proximity == x;
    MulLe(mult1, 1.0, 1.0 + x);
    MulLe(mult1, 1.0 + x, 1.0 + mult2);
  }

  /** The closer the player (the larger P), the larger the weight. */
  lemma CombineWeightMonotone(mult1: real, mult2: real, p1: real, p2: real)
    requires mult1 >= 0.0 && mult2 >= 0.0 && p1 <= p2
    ensures CombineWeight(mult1, mult2, p1) <= CombineWeight(mult1, mult2, p2)
  {
    MulLe(mult2, p1, p2);
    assert p1 * mult2 <= p2 * mult2;
    MulLe(mult1, 1.0 + p1 * mult2, 1.0 + p2 * mult2);
  }

  /**
   * The inverse-square falloff 1 / (x / s + Epsilon)^2, strictly positive;
   * computed as (1 / |value|) / |value|, which is the same number.
   */
  function Inv(x: real, s: real): (r: real)
    requires s != 0.0 && x / s + Epsilon != 0.0
    ensures r > 0.0
  {
    var value := Abs(x / s + Epsilon);
    var reciprocal := 1.0 / value;
    reciprocal / value
  }

  /** Every listed insect has a position. */
  predicate Placed(ids: seq<InsectId>, positions: map<InsectId, Vec3>) {
    forall i :: 0 <= i < |ids| ==> ids[i] in positions
  }

  /** `distance` is the Euclidean distance. */
  ghost predicate Euclidean(distance: (Vec3, Vec3) -> real) {
    forall a: Vec3, b: Vec3 :: IsLength(distance(a, b), SqrDist3(a, b))
  }

  /** The insect counts for cohesion: not the mosquito itself, and not farther than FlockingMaxDistance. */
  predicate CohesionNeighbour(self: InsectId, pos: Vec3, x: InsectId, q: Vec3, distance: (Vec3, Vec3) -> real) {
    x != self && !(distance(q, pos) > FlockingMaxDistance)
  }

  /** The insects that count for cohesion, in list order. */
  function CohesionNeighbours(ids: seq<InsectId>, self: InsectId, pos: Vec3, positions: map<InsectId, Vec3>,
                              distance: (Vec3, Vec3) -> real): (ns: seq<InsectId>)
    requires Placed(ids, positions)
    ensures Placed(ns, positions)
    decreases |ids|
  {
    if ids == [] then []
    else
      var x := ids[|ids| - 1];
      var rest := CohesionNeighbours(ids[..|ids| - 1], self, pos, positions, distance);
      assert ids == ids[..|ids| - 1] + [x];
      if CohesionNeighbour(self, pos, x, positions[x], distance) then rest + [x] else rest
  }

  /** Exactly the listed insects that count for cohesion are cohesion neighbours. */
  lemma {:induction false} CohesionNeighboursMembers(ids: seq<InsectId>, self: InsectId, pos: Vec3,
                                                     positions: map<InsectId, Vec3>, distance: (Vec3, Vec3) -> real)
    requires Placed(ids, positions)
    ensures forall x :: x in CohesionNeighbours(ids, self, pos, positions, distance) <==>
      x in ids && x in positions && CohesionNeighbour(self, pos, x, positions[x], distance)
    decreases |ids|
  {
    if ids != [] {
      var init, x := ids[..|ids| - 1], ids[|ids| - 1];
      CohesionNeighboursMembers(init, self, pos, positions, distance);
      assert ids == init + [x];
    }
  }

  /** The sum of the listed insects' positions. */
  function SumPositions(ns: seq<InsectId>, positions: map<InsectId, Vec3>): Vec3
    requires Placed(ns, positions)
    decreases |ns|
  {
    if ns == [] then Zero3
    else Add3(SumPositions(ns[..|ns| - 1], positions), positions[ns[|ns| - 1]])
  }

  /**
   * The cohesion rule: the direction from the mosquito to the average
   * position of its cohesion neighbours, or the zero vector when there is none.
   */
  function Cohesion(ids: seq<InsectId>, self: InsectId, pos: Vec3, positions: map<InsectId, Vec3>,
                    distance: (Vec3, Vec3) -> real, direction: Vec3 -> Vec3): Vec3
    requires Placed(ids, positions)
  {
    var ns := CohesionNeighbours(ids, self, pos, positions, distance);
    if |ns| == 0 then Zero3
    else direction(Sub3(Div3(SumPositions(ns, positions), |ns| as real), pos))
  }

  /** The mosquito never counts itself, whatever the list holds. */
  lemma CohesionExcludesSelf(ids: seq<InsectId>, self: InsectId, pos: Vec3, positions: map<InsectId, Vec3>,
                             distance: (Vec3, Vec3) -> real)
    requires Placed(ids, positions)
    ensures self !in CohesionNeighbours(ids, self, pos, positions, distance)
  {
    CohesionNeighboursMembers(ids, self, pos, positions, distance);
  }

  /** With every other mosquito farther than FlockingMaxDistance, cohesion is the zero vector. */
  lemma CohesionZeroWhenIsolated(ids: seq<InsectId>, self: InsectId, pos: Vec3, positions: map<InsectId, Vec3>,
                                 distance: (Vec3, Vec3) -> real, direction: Vec3 -> Vec3)
    requires Placed(ids, positions)
    requires forall i :: 0 <= i < |ids| && ids[i] != self ==> distance(positions[ids[i]], pos) > FlockingMaxDistance
    ensures Cohesion(ids, self, pos, positions, distance, direction) == Zero3
  {
    CohesionNeighboursMembers(ids, self, pos, positions, distance);
  }

  /** With the Euclidean distance, the cohesion filter is a comparison of squared distances. */
  lemma CohesionBySquaredDistance(self: InsectId, pos: Vec3, x: InsectId, q: Vec3, distance: (Vec3, Vec3) -> real)
    requires Euclidean(distance)
    ensures CohesionNeighbour(self, pos, x, q, distance) <==> x != self && !DistGreater(SqrDist3(q, pos), FlockingMaxDistance)
  {
    DistanceComparisons(distance(q, pos), SqrDist3(q, pos), FlockingMaxDistance);
  }

  /** The insect repels: not the mosquito itself, not farther than FlockingMaxDistance and not closer than MinSeparationDistance. */
  predicate SeparationNeighbour(self: InsectId, pos: Vec3, x: InsectId, q: Vec3, distance: (Vec3, Vec3) -> real) {
    x != self && !(distance(q, pos) > FlockingMaxDistance || distance(q, pos) < MinSeparationDistance)
  }

  /** The insects that repel, in list order. */
  function SeparationNeighbours(ids: seq<InsectId>, self: InsectId, pos: Vec3, positions: map<InsectId, Vec3>,
                                distance: (Vec3, Vec3) -> real): (ns: seq<InsectId>)
    requires Placed(ids, positions)
    ensures Apart(ns, pos, positions, distance)
    decreases |ids|
  {
    if ids == [] then []
    else
      var x := ids[|ids| - 1];
      var rest := SeparationNeighbours(ids[..|ids| - 1], self, pos, positions, distance);
      assert ids == ids[..|ids| - 1] + [x];
      if SeparationNeighbour(self, pos, x, positions[x], distance) then rest + [x] else rest
  }

  /** Exactly the listed insects that repel are separation neighbours. */
  lemma {:induction false} SeparationNeighboursMembers(ids: seq<InsectId>, self: InsectId, pos: Vec3,
                                                       positions: map<InsectId, Vec3>, distance: (Vec3, Vec3) -> real)
    requires Placed(ids, positions)
    ensures forall x :: x in SeparationNeighbours(ids, self, pos, positions, distance) <==>
      x in ids && x in positions && SeparationNeighbour(self, pos, x, positions[x], distance)
    decreases |ids|
  {
    if ids != [] {
      var init, x := ids[..|ids| - 1], ids[|ids| - 1];
      SeparationNeighboursMembers(init, self, pos, positions, distance);
      assert ids == init + [x];
    }
  }

  /** Every listed insect has a position at least MinSeparationDistance away. */
  predicate Apart(ns: seq<InsectId>, pos: Vec3, positions: map<InsectId, Vec3>, distance: (Vec3, Vec3) -> real) {
    forall i :: 0 <= i < |ns| ==> ns[i] in positions && distance(positions[ns[i]], pos) >= MinSeparationDistance
  }

  /** The push away from a point at distance `m`: the unit vector away from it times Inv(m, 1). */
  function Repulsion(away: Vec3, m: real): Vec3
    requires m > 0.0
  {
    Scale3(Div3(away, m), Inv(m, 1.0))
  }

  /** The sum of the pushes away from the listed insects. */
  function SumRepulsions(ns: seq<InsectId>, pos: Vec3, positions: map<InsectId, Vec3>, distance: (Vec3, Vec3) -> real): Vec3
    requires Apart(ns, pos, positions, distance)
    decreases |ns|
  {
    if ns == [] then Zero3
    else
      var q := positions[ns[|ns| - 1]];
      Add3(SumRepulsions(ns[..|ns| - 1], pos, positions, distance), Repulsion(Sub3(pos, q), distance(q, pos)))
  }

  /** The player repels only strictly between MinSeparationDistance and FlockingMaxDistance. */
  predicate PlayerRepels(playerPos: Vec3, pos: Vec3, distance: (Vec3, Vec3) -> real) {
    distance(playerPos, pos) < FlockingMaxDistance && distance(playerPos, pos) > MinSeparationDistance
  }

  /** The player's push on the mosquito, or the zero vector outside the band where the player repels. */
  function PlayerRepulsion(playerPos: Vec3, pos: Vec3, distance: (Vec3, Vec3) -> real): (r: Vec3)
    ensures !PlayerRepels(playerPos, pos, distance) ==> r == Zero3
  {
    if PlayerRepels(playerPos, pos, distance) then
      Repulsion(Sub3(pos, playerPos), distance(playerPos, pos))
    else Zero3
  }

  /** The pushes away from every separation neighbour. */
  function NeighbourRepulsion(ids: seq<InsectId>, self: InsectId, pos: Vec3, positions: map<InsectId, Vec3>,
                              distance: (Vec3, Vec3) -> real): Vec3
    requires Placed(ids, positions)
  {
    SumRepulsions(SeparationNeighbours(ids, self, pos, positions, distance), pos, positions, distance)
  }

  /** The separation rule: the pushes away from every separation neighbour, plus the player's. */
  function Separation(ids: seq<InsectId>, self: InsectId, pos: Vec3, positions: map<InsectId, Vec3>, playerPos: Vec3,
                      distance: (Vec3, Vec3) -> real): Vec3
    requires Placed(ids, positions)
  {
    Add3(NeighbourRepulsion(ids, self, pos, positions, distance), PlayerRepulsion(playerPos, pos, distance))
  }

  /** Extending the list by one insect extends the cohesion neighbours by it exactly when it counts. */
  lemma CohesionStep(ids: seq<InsectId>, x: InsectId, self: InsectId, pos: Vec3, positions: map<InsectId, Vec3>,
                     distance: (Vec3, Vec3) -> real)
    requires Placed(ids, positions) && x in positions
    ensures Placed(ids + [x], positions)
    ensures var ns := CohesionNeighbours(ids, self, pos, positions, distance);
      CohesionNeighbours(ids + [x], self, pos, positions, distance)
        == if CohesionNeighbour(self, pos, x, positions[x], distance) then ns + [x] else ns
  {
    assert (ids + [x])[..|ids|] == ids;
    assert (ids + [x])[|ids|] == x;
    assert forall i :: 0 <= i < |ids| ==> ids[i] == (ids + [x])[i];
  }

  lemma SumPositionsStep(ns: seq<InsectId>, x: InsectId, positions: map<InsectId, Vec3>)
    requires Placed(ns, positions) && x in positions
    ensures Placed(ns + [x], positions)
    ensures SumPositions(ns + [x], positions) == Add3(SumPositions(ns, positions), positions[x])
  {
    assert (ns + [x])[..|ns|] == ns;
  }

  /** Extending the list by one insect adds the push away from it exactly when it repels. */
  lemma SeparationStep(ids: seq<InsectId>, x: InsectId, self: InsectId, pos: Vec3, positions: map<InsectId, Vec3>,
                       distance: (Vec3, Vec3) -> real)
    requires Placed(ids, positions) && x in positions
    ensures Placed(ids + [x], positions)
    ensures SeparationNeighbour(self, pos, x, positions[x], distance) ==> distance(positions[x], pos) > 0.0
    ensures var r := NeighbourRepulsion(ids, self, pos, positions, distance);
      NeighbourRepulsion(ids + [x], self, pos, positions, distance)
        == if SeparationNeighbour(self, pos, x, positions[x], distance)
           then Add3(r, Repulsion(Sub3(pos, positions[x]), distance(positions[x], pos)))
           else r
  {
    assert (ids + [x])[..|ids|] == ids;
    assert (ids + [x])[|ids|] == x;
    assert forall i :: 0 <= i < |ids| ==> ids[i] == (ids + [x])[i];
    var ns := SeparationNeighbours(ids, self, pos, positions, distance);
    assert (ns + [x])[..|ns|] == ns;
  }

  /**
   * The two filters treat their boundaries differently: a mosquito at
   * exactly FlockingMaxDistance still repels, the player at that distance
   * does not; a mosquito at exactly MinSeparationDistance repels, the player
   * at that distance does not.
   */
  lemma SeparationBoundaries(self: InsectId, pos: Vec3, x: InsectId, q: Vec3, playerPos: Vec3, distance: (Vec3, Vec3) -> real)
    requires x != self
    requires distance(q, pos) == FlockingMaxDistance || distance(q, pos) == MinSeparationDistance
    requires distance(playerPos, pos) == distance(q, pos)
    ensures SeparationNeighbour(self, pos, x, q, distance)
    ensures !PlayerRepels(playerPos, pos, distance)
  {
  }

  /**
   * The player attraction rule: nothing within SwitchPlayerAttractionDist of
   * the player, otherwise a pull towards the player falling off as
   * Inv(distance, 5).
   */
  function PlayerAttraction(playerPos: Vec3, pos: Vec3, distance: (Vec3, Vec3) -> real, direction: Vec3 -> Vec3): (r: Vec3)
    ensures distance(playerPos, pos) < SwitchPlayerAttractionDist ==> r == Zero3
    ensures distance(playerPos, pos) >= SwitchPlayerAttractionDist ==>
      exists k :: k > 0.0 && r == Scale3(direction(Sub3(playerPos, pos)), k)
  {
    var m := distance(playerPos, pos);
    if m < SwitchPlayerAttractionDist then Zero3
    else
      var k := Inv(m, 5.0);
      Scale3(direction(Sub3(playerPos, pos)), k)
  }

  /**
   * The light attraction rule: the direction to the chosen light's own
   * position (not the attraction point used to choose it); None stands for
   * the null dereference when no light is registered.
   */
  function LightAttraction(lights: seq<Lights.LightId>, world: map<Lights.LightId, Lights.Light>, pos: Vec3,
                           distance: (Vec3, Vec3) -> real, direction: Vec3 -> Vec3): (r: Option<Vec3>)
    requires Lights.Known(lights, world)
    ensures r.None? <==> lights == []
    ensures r.Some? ==> exists l :: l in lights && l in world && r.value == direction(Sub3(world[l].position, pos))
  {
    match Lights.MostAttractiveLight(lights, world, pos, distance)
    case None => None
    case Some(light) => Some(direction(Sub3(world[light].position, pos)))
  }

  /** How ApplyRules weighs the four rules; `proximity` is P of the distance to the player. */
  function Steering(cohesion: Vec3, separation: Vec3, attraction: Vec3, light: Vec3, proximity: real): Vec3 {
    var v := Scale3(cohesion, CombineWeight(WeightCohesionBase, WeightCohesionPlayerNear, proximity));
    var v := Add3(v, Scale3(separation, CombineWeight(WeightSeparationBase, WeightSeparationPlayerNear, proximity)));
    var v := Add3(v, Scale3(attraction, WeightPlayerAttraction));
    Add3(v, Scale3(light, WeightLightAttraction))
  }

  /** With the default multipliers, separation is weighed 2 at any distance to the player. */
  lemma SeparationWeightConstant(proximity: real)
    ensures CombineWeight(WeightSeparationBase, WeightSeparationPlayerNear, proximity) == 2.0
  {
  }

  /** The speed limit: MaxVelocityBase far from the player, rising to MaxVelocityPlayerNear at the player. */
  function MaxVelocity(distanceToPlayer: real): (v: real)
    ensures MaxVelocityBase <= v <= MaxVelocityPlayerNear
    ensures distanceToPlayer >= PlayerProximityZoneRadius ==> v == MaxVelocityBase
    ensures distanceToPlayer <= 0.0 ==> v == MaxVelocityPlayerNear
  {
    Lerp(MaxVelocityBase, MaxVelocityPlayerNear, 1.0 - distanceToPlayer / PlayerProximityZoneRadius)
  }

  /** The speed limit never decreases as the player comes closer. */
  lemma MaxVelocityMonotone(d1: real, d2: real)
    requires d1 <= d2
    ensures MaxVelocity(d2) <= MaxVelocity(d1)
  {
    assert d1 / PlayerProximityZoneRadius <= d2 / PlayerProximityZoneRadius;
    LerpMonotone(MaxVelocityBase, MaxVelocityPlayerNear,
                 1.0 - d2 / PlayerProximityZoneRadius, 1.0 - d1 / PlayerProximityZoneRadius);
  }

  /** The vector with its z component set to 0. */
  function Flatten(v: Vec3): (r: Vec3)
    ensures r.x == v.x && r.y == v.y && r.z == 0.0
    ensures SqrMag3(r) <= SqrMag3(v)
  {
    Vec3(v.x, v.y, 0.0)
  }

  /** The shared list of enabled mosquitoes. */
  class InsectRegistry {
    var insects: seq<InsectId>

    constructor ()
      ensures insects == []
    {
      insects := [];
    }

    /** OnEnable: the mosquito joins the end of the list. */
    method OnEnable(id: InsectId)
      modifies this
      ensures insects == old(insects) + [id]
    {
      insects := insects + [id];
    }

    /** OnDisable: the first occurrence of the mosquito leaves the list; the others keep their order. */
    method OnDisable(id: InsectId)
      modifies this
      ensures insects == Lists.Remove(old(insects), id)
    {
      insects := Lists.Remove(insects, id);
    }
  }

  class InsectBoid {
    const id: InsectId
    var position: Vec3
    var targetVelocity: Vec3
    var velocity: Vec3
    /** The SmoothDamp state carried from frame to frame. */
    var refPosition: Vec3
    var dir: Facing.Direction
    var lastTurnTime: real
    /** The x component of the transform's local scale: -1 faces right, 1 faces left. */
    var scaleX: real

    constructor (id: InsectId, position: Vec3)
      ensures this.id == id && this.position == position
      ensures targetVelocity == Zero3 && velocity == Zero3 && refPosition == Zero3
      ensures dir == Facing.Left && lastTurnTime == 0.0 && scaleX == 1.0
    {
      this.id := id;
      this.position := position;
      targetVelocity := Zero3;
      velocity := Zero3;
      refPosition := Zero3;
      dir := Facing.Left;
      lastTurnTime := 0.0;
      scaleX := 1.0;
    }

    function Heading(): Facing.Heading
      reads this
    {
      Facing.Heading(dir, lastTurnTime)
    }

    /**
     * RuleCohesion: one pass over the registry counting and summing the
     * positions of the cohesion neighbours.
     */
    method RuleCohesion(insects: seq<InsectId>, positions: map<InsectId, Vec3>,
                        distance: (Vec3, Vec3) -> real, direction: Vec3 -> Vec3) returns (v: Vec3)
      requires Placed(insects, positions)
      ensures v == Cohesion(insects, id, position, positions, distance, direction)
    {
      var pos := position;
      var averagePosition := Zero3;
      var averageCount := 0;
      for i := 0 to |insects|
        invariant averageCount == |CohesionNeighbours(insects[..i], id, pos, positions, distance)|
        invariant averagePosition == SumPositions(CohesionNeighbours(insects[..i], id, pos, positions, distance), positions)
      {
        var insect := insects[i];
        assert insects[..i + 1] == insects[..i] + [insect];
        CohesionStep(insects[..i], insect, id, pos, positions, distance);
        SumPositionsStep(CohesionNeighbours(insects[..i], id, pos, positions, distance), insect, positions);
        if insect == id || distance(positions[insect], pos) > FlockingMaxDistance {
          continue;
        }
        averageCount := averageCount + 1;
        averagePosition := Add3(averagePosition, positions[insect]);
      }
      assert insects[..|insects|] == insects;
      if averageCount == 0 {
        return Zero3;
      }
      averagePosition := Div3(averagePosition, averageCount as real);
      v := direction(Sub3(averagePosition, pos));
    }

    /**
     * RuleSeparation: one pass over the registry adding the push away from
     * each separation neighbour, then the player's push.
     */
    method RuleSeparation(insects: seq<InsectId>, positions: map<InsectId, Vec3>, playerPos: Vec3,
                          distance: (Vec3, Vec3) -> real) returns (v: Vec3)
      requires Placed(insects, positions)
      ensures v == Separation(insects, id, position, positions, playerPos, distance)
    {
      var pos := position;
      var separationVector := Zero3;
      for i := 0 to |insects|
        invariant separationVector == NeighbourRepulsion(insects[..i], id, pos, positions, distance)
      {
        var insect := insects[i];
        assert insects[..i + 1] == insects[..i] + [insect];
        SeparationStep(insects[..i], insect, id, pos, positions, distance);
        if insect == id {
          continue;
        }
        var q := positions[insect];
        if distance(q, pos) > FlockingMaxDistance || distance(q, pos) < MinSeparationDistance {
          continue;
        }
        var insectToInsect := Sub3(pos, q);
        var magnitude := distance(q, pos);
        separationVector := Add3(separationVector, Repulsion(insectToInsect, magnitude));
      }
      assert insects[..|insects|] == insects;
      ghost var fromInsects := separationVector;
      if distance(playerPos, pos) < FlockingMaxDistance && distance(playerPos, pos) > MinSeparationDistance {
        var playerToInsect := Sub3(pos, playerPos);
        var magnitude := distance(playerPos, pos);
        assert PlayerRepulsion(playerPos, pos, distance) == Repulsion(playerToInsect, magnitude);
        separationVector := Add3(separationVector, Repulsion(playerToInsect, magnitude));
      } else {
        assert PlayerRepulsion(playerPos, pos, distance) == Zero3;
        assert Add3(fromInsects, Zero3) == fromInsects;
      }
      assert separationVector == Add3(fromInsects, PlayerRepulsion(playerPos, pos, distance));
      v := separationVector;
    }

    /**
     * ApplyRules: the weighted sum of the four rules. None when no light is
     * registered, where the light rule dereferences a null light.
     */
    method ApplyRules(insects: seq<InsectId>, positions: map<InsectId, Vec3>, lights: Lights.LightRegistry,
                      world: map<Lights.LightId, Lights.Light>, playerPos: Vec3,
                      distance: (Vec3, Vec3) -> real, direction: Vec3 -> Vec3, proximity: real -> real)
      returns (v: Option<Vec3>)
      requires Placed(insects, positions) && Lights.Known(lights.lights, world)
      ensures v.None? <==> lights.lights == []
      ensures v.Some? ==> v.value == Steering(
        Cohesion(insects, id, position, positions, distance, direction),
        Separation(insects, id, position, positions, playerPos, distance),
        PlayerAttraction(playerPos, position, distance, direction),
        LightAttraction(lights.lights, world, position, distance, direction).value,
        proximity(distance(position, playerPos)))
    {
      var distanceToPlayer := distance(position, playerPos);
      var cohesion := RuleCohesion(insects, positions, distance, direction);
      var separation := RuleSeparation(insects, positions, playerPos, distance);
      var attraction := PlayerAttraction(playerPos, position, distance, direction);
      var closestLight := lights.GetMostAttractiveLight(world, position, distance);
      if closestLight.None? {
        return None;
      }
      var light := direction(Sub3(world[closestLight.value].position, position));
      v := Some(Steering(cohesion, separation, attraction, light, proximity(distanceToPlayer)));
    }

    /**
     * Turn: the facing rule applied to the horizontal component of the target
     * velocity, with the sprite mirrored to match.
     */
    method Turn(now: real)
      modifies this
      ensures Heading() == Facing.Turn(old(Heading()), now, targetVelocity.x)
      ensures Heading() != old(Heading()) ==> scaleX == (if dir == Facing.Right then -1.0 else 1.0)
      ensures Heading() == old(Heading()) ==> scaleX == old(scaleX)
      ensures position == old(position) && targetVelocity == old(targetVelocity) && velocity == old(velocity)
      ensures refPosition == old(refPosition)
    {
      if now < lastTurnTime + Facing.TurnInterval {
        return;
      }
      if targetVelocity.x > 0.0 && dir != Facing.Right {
        scaleX := -1.0;
        dir := Facing.Right;
        lastTurnTime := now;
      } else if targetVelocity.x < 0.0 && dir != Facing.Left {
        scaleX := 1.0;
        dir := Facing.Left;
        lastTurnTime := now;
      }
    }

    /**
     * Update: the target velocity becomes the steering of the four rules and
     * the mosquito turns; with no light registered the frame stops at the
     * null dereference and nothing changes.
     */
    method Update(now: real, insects: seq<InsectId>, positions: map<InsectId, Vec3>, lights: Lights.LightRegistry,
                  world: map<Lights.LightId, Lights.Light>, playerPos: Vec3,
                  distance: (Vec3, Vec3) -> real, direction: Vec3 -> Vec3, proximity: real -> real)
      requires Placed(insects, positions) && Lights.Known(lights.lights, world)
      modifies this
      ensures lights.lights == [] ==>
        Heading() == old(Heading()) && targetVelocity == old(targetVelocity) && scaleX == old(scaleX)
      ensures lights.lights != [] ==> targetVelocity == Steering(
        Cohesion(insects, id, old(position), positions, distance, direction),
        Separation(insects, id, old(position), positions, playerPos, distance),
        PlayerAttraction(playerPos, old(position), distance, direction),
        LightAttraction(lights.lights, world, old(position), distance, direction).value,
        proximity(distance(old(position), playerPos)))
      ensures lights.lights != [] ==> Heading() == Facing.Turn(old(Heading()), now, targetVelocity.x)
      ensures Heading() == old(Heading()) ==> scaleX == old(scaleX)
      ensures Heading() != old(Heading()) ==> scaleX == (if dir == Facing.Right then -1.0 else 1.0)
      ensures position == old(position) && velocity == old(velocity) && refPosition == old(refPosition)
    {
      var v := ApplyRules(insects, positions, lights, world, playerPos, distance, direction, proximity);
      if v.None? {
        return;
      }
      targetVelocity := v.value;
      Turn(now);
    }

    /**
     * Move: the target velocity is clamped to the speed limit for the
     * current distance to the player and flattened to the plane; the
     * velocity follows it through SmoothDamp, is flattened too, and moves
     * the mosquito when it is not zero. `distanceToPlayer` is the magnitude
     * of the offset from the player, `targetLength` that of the target
     * velocity, and `smoothDamp(current, target, state, smoothTime)` is
     * Vector3.SmoothDamp returning the new value and the new state.
     */
    method Move(dt: real, playerPos: Vec3, distanceToPlayer: real, targetLength: real,
                smoothDamp: (Vec3, Vec3, Vec3, real) -> (Vec3, Vec3))
      requires IsLength(distanceToPlayer, SqrMag3(Sub3(position, playerPos)))
      requires IsLength(targetLength, SqrMag3(targetVelocity))
      modifies this
      ensures var limit := MaxVelocity(distanceToPlayer);
        SqrMag3(targetVelocity) <= limit * limit
      ensures targetVelocity == Flatten(ClampMagnitude3(old(targetVelocity), MaxVelocity(distanceToPlayer), targetLength))
      ensures targetLength <= MaxVelocity(distanceToPlayer) ==> targetVelocity == Flatten(old(targetVelocity))
      ensures targetVelocity.z == 0.0 && velocity.z == 0.0
      ensures var (next, state) := smoothDamp(old(velocity), targetVelocity, old(refPosition), VelocitySmooth);
        velocity == Flatten(next) && refPosition == state
      ensures velocity != Zero3 ==> position == Add3(old(position), Scale3(velocity, dt))
      ensures velocity == Zero3 ==> position == old(position)
      ensures Heading() == old(Heading()) && scaleX == old(scaleX)
    {
      var currentMaxVelocity := MaxVelocity(distanceToPlayer);
      ghost var bound := currentMaxVelocity * currentMaxVelocity;
      var clamped := ClampMagnitude3(targetVelocity, currentMaxVelocity, targetLength);
      assert SqrMag3(clamped) <= bound;
      targetVelocity := Flatten(clamped);
      assert SqrMag3(targetVelocity) <= bound;
      var (next, state) := smoothDamp(velocity, targetVelocity, refPosition, VelocitySmooth);
      refPosition := state;
      velocity := Flatten(next);
      if velocity != Zero3 {
        position := Add3(position, Scale3(velocity, dt));
      }
    }
  }
}

=== FILE: light_attraction.dfy ===
/**
 * LightAttraction: the lights mosquitoes are drawn to, kept in one shared
 * registry, and the choice of the most attractive light for a position:
 * the one whose distance, measured in units of its own range, is smallest.
 */
module Lights {
  import opened Vectors
  import opened Wrappers
  import Lists

  /** A LightAttraction component, identified by its object reference. */
  type LightId = nat

  /**
   * The current state of a light, as a query reads it: `position` is its
   * transform's position, `attractionPosition` its offset point in world
   * space (TransformPoint of the offset) and `range` its range. The records
   * of all lights are passed to each query as a map, so a light that moved
   * since it was enabled is scored where it is now.
   */
  datatype Light = Light(position: Vec3, attractionPosition: Vec3, range: real)

  /** Every registered light has a current record, and its range is positive, so distance / range is defined. */
  predicate Known(lights: seq<LightId>, world: map<LightId, Light>) {
    forall i :: 0 <= i < |lights| ==> lights[i] in world && world[lights[i]].range > 0.0
  }

  /**
   * Vector3.Distance from the position to the light's attraction point,
   * divided by the light's range; `distance` is the engine's Vector3.Distance.
   */
  function Score(light: Light, pos: Vec3, distance: (Vec3, Vec3) -> real): real
    requires light.range > 0.0
  {
    distance(pos, light.attractionPosition) / light.range
  }

  /** Each registered light's score, in list order. */
  function Scores(lights: seq<LightId>, world: map<LightId, Light>, pos: Vec3, distance: (Vec3, Vec3) -> real): (scores: seq<real>)
    requires Known(lights, world)
    ensures |scores| == |lights|
    ensures forall i :: 0 <= i < |lights| ==> scores[i] == Score(world[lights[i]], pos, distance)
  {
    seq(|lights|, i requires 0 <= i < |lights| => Score(world[lights[i]], pos, distance))
  }

  /**
   * The position of the first smallest score: every score before it is
   * strictly larger, and none is smaller.
   */
  function FirstMinIndex(scores: seq<real>): (i: nat)
    requires scores != []
    ensures i < |scores|
    ensures forall j :: 0 <= j < |scores| ==> scores[i] <= scores[j]
    ensures forall j :: 0 <= j < i ==> scores[i] < scores[j]
  {
    if |scores| == 1 then 0
    else
      var k := 1 + FirstMinIndex(scores[1..]);
      assert forall j :: 1 <= j < |scores| ==> scores[j] == scores[1..][j - 1];
      if scores[0] <= scores[k] then 0 else k
  }

  /** The index of a first minimum is determined by the two properties that define it. */
  lemma FirstMinIndexUnique(scores: seq<real>, i: nat)
    requires i < |scores|
    requires forall j :: 0 <= j < |scores| ==> scores[i] <= scores[j]
    requires forall j :: 0 <= j < i ==> scores[i] < scores[j]
    ensures FirstMinIndex(scores) == i
  {
    var f := FirstMinIndex(scores);
    assert scores[f] <= scores[i] && scores[i] <= scores[f];
  }

  /** Appending a score moves the first minimum there exactly when the new score is strictly smaller. */
  lemma FirstMinIndexAppend(scores: seq<real>, x: real)
    requires scores != []
    ensures var m := FirstMinIndex(scores);
      FirstMinIndex(scores + [x]) == if x < scores[m] then |scores| else m
  {
    var all := scores + [x];
    var m := FirstMinIndex(scores);
    if x < scores[m] {
      forall j | 0 <= j < |all| ensures all[|scores|] <= all[j] {
        if j < |scores| { assert all[j] == scores[j]; }
      }
      forall j | 0 <= j < |scores| ensures all[|scores|] < all[j] {
        assert all[j] == scores[j];
      }
      FirstMinIndexUnique(all, |scores|);
    } else {
      forall j | 0 <= j < |all| ensures all[m] <= all[j] {
        if j < |scores| { assert all[j] == scores[j]; }
      }
      forall j | 0 <= j < m ensures all[m] < all[j] {
        assert all[j] == scores[j];
      }
      FirstMinIndexUnique(all, m);
    }
  }

  /** The light GetMostAttractiveLight chooses, or None when there is no light. */
  function MostAttractiveLight(lights: seq<LightId>, world: map<LightId, Light>, pos: Vec3, distance: (Vec3, Vec3) -> real): (r: Option<LightId>)
    requires Known(lights, world)
    ensures r.None? <==> lights == []
    ensures r.Some? ==> r.value in lights && r.value in world
    ensures r.Some? ==> forall j :: 0 <= j < |lights| ==>
      Score(world[r.value], pos, distance) <= Score(world[lights[j]], pos, distance)
  {
    if lights == [] then None else Some(lights[FirstMinIndex(Scores(lights, world, pos, distance))])
  }

  /** Ties go to the earliest light: every light before the chosen one scores strictly more. */
  lemma TiesGoToEarliest(lights: seq<LightId>, world: map<LightId, Light>, pos: Vec3, distance: (Vec3, Vec3) -> real, j: nat)
    requires Known(lights, world) && lights != []
    requires j < FirstMinIndex(Scores(lights, world, pos, distance))
    ensures Score(world[lights[j]], pos, distance) >
      Score(world[MostAttractiveLight(lights, world, pos, distance).value], pos, distance)
  {
  }

  /** The shared list of enabled lights, by reference. */
  class LightRegistry {
    var lights: seq<LightId>

    constructor ()
      ensures lights == []
    {
      lights := [];
    }

    /** OnEnable: the light joins the end of the list. */
    method OnEnable(light: LightId)
      modifies this
      ensures lights == old(lights) + [light]
    {
      lights := lights + [light];
    }

    /** OnDisable: the first occurrence of the light leaves the list; the others keep their order. */
    method OnDisable(light: LightId)
      modifies this
      ensures lights == Lists.Remove(old(lights), light)
    {
      lights := Lists.Remove(lights, light);
    }

    /**
     * GetMostAttractiveLight: one pass over the list keeping the light with
     * the smallest score so far and replacing it only on a strictly smaller
     * score, so ties go to the earliest light. Each light is scored from
     * its record in `world`, its state at the time of the query.
     */
    method GetMostAttractiveLight(world: map<LightId, Light>, pos: Vec3, distance: (Vec3, Vec3) -> real)
      returns (closestLight: Option<LightId>)
      requires Known(lights, world)
      ensures closestLight == MostAttractiveLight(lights, world, pos, distance)
    {
      var candidates := lights;
      closestLight := None;
      var minDist := 0.0;
      ghost var scores: seq<real> := [];
      var i := 0;
      while i < |candidates|
        invariant 0 <= i <= |candidates|
        invariant |scores| == i
        invariant forall j :: 0 <= j < i ==> scores[j] == Score(world[candidates[j]], pos, distance)
        invariant closestLight.None? <==> i == 0
        invariant i > 0 ==> closestLight == Some(candidates[FirstMinIndex(scores)])
        invariant i > 0 ==> minDist == scores[FirstMinIndex(scores)]
      {
        var light := candidates[i];
        var dist := Score(world[light], pos, distance);
        if i > 0 {
          FirstMinIndexAppend(scores, dist);
        }
        if closestLight.None? || dist < minDist {
          minDist := dist;
          closestLight := Some(light);
        }
        scores := scores + [dist];
        i := i + 1;
      }
      assert scores == Scores(candidates, world, pos, distance);
    }
  }
}

=== FILE: lists.dfy ===
/**
 * The semantics of the engine-side List<T> operations that the static
 * registries use: Add appends, Remove drops the first occurrence.
 */
module Lists {

  /** List<T>.IndexOf: the first position holding `x`, or |s| when there is none. */
  function IndexOf<T(==)>(s: seq<T>, x: T): (i: nat)
    ensures i <= |s|
    ensures i < |s| ==> s[i] == x
    ensures forall j :: 0 <= j < i ==> s[j] != x
    ensures i == |s| <==> x !in s
  {
    if |s| == 0 then 0
    else if s[0] == x then 0
    else 1 + IndexOf(s[1..], x)
  }

  /**
   * List<T>.Remove: the first occurrence of `x` is dropped, if there is one;
   * every other element keeps its place relative to the rest.
   */
  function Remove<T(==)>(s: seq<T>, x: T): (r: seq<T>)
    ensures x !in s ==> r == s
    ensures x in s ==> |r| == |s| - 1
    ensures x in s ==> forall k :: 0 <= k < |r| ==>
      r[k] == if k < IndexOf(s, x) then s[k] else s[k + 1]
    ensures multiset(r) == multiset(s) - multiset{x}
  {
    var i := IndexOf(s, x);
    if i == |s| then s
    else
      assert s == s[..i] + [x] + s[i + 1..];
      s[..i] + s[i + 1..]
  }

  /** No element occurs twice. */
  predicate NoDuplicates<T(==)>(s: seq<T>) {
    forall i, j :: 0 <= i < j < |s| ==> s[i] != s[j]
  }

  /** Removing from a list without duplicates leaves no trace of the element, and no duplicates. */
  lemma RemoveFromDistinct<T>(s: seq<T>, x: T)
    requires NoDuplicates(s)
    ensures x !in Remove(s, x)
    ensures NoDuplicates(Remove(s, x))
  {
    if x in s {
      var i := IndexOf(s, x);
      var r := Remove(s, x);
      forall p, q | 0 <= p < q < |r| ensures r[p] != r[q] {
        var p' := if p < i then p else p + 1;
        var q' := if q < i then q else q + 1;
        assert p' < q';
        assert r[p] == s[p'] && r[q] == s[q'];
      }
      forall k | 0 <= k < |r| ensures r[k] != x {
        var k' := if k < i then k else k + 1;
        assert k' != i;
        assert r[k] == s[k'];
      }
    }
  }

  /** Remove touches no element other than the one removed. */
  lemma RemoveKeepsOthers<T>(s: seq<T>, x: T, y: T)
    requires y != x
    ensures y in Remove(s, x) <==> y in s
  {
    assert multiset(Remove(s, x))[y] == multiset(s)[y];
  }

  /** Adding an absent element and then removing it gives back the original list. */
  lemma {:induction false} AddThenRemove<T>(s: seq<T>, x: T)
    requires x !in s
    ensures Remove(s + [x], x) == s
  {
    var t := s + [x];
    assert IndexOf(t, x) == |s| by {
      assert t[|s|] == x;
      assert forall j :: 0 <= j < |s| ==> t[j] == s[j];
    }
    assert t[..|s|] == s;
    assert t[|s| + 1..] == [];
  }
}

=== FILE: mantis.dfy ===
/**
 * Mantis: the predator. It walks towards a mosquito picked at random, flees
 * when the player comes near while the player still has energy, and when its
 * target is within reach it prepares an attack for MantisAttackPreparation
 * seconds of frame time, after which it eats the target and disappears.
 */
module Predator {
  import opened Mathf
  import opened Vectors
  import opened Wrappers
  import Facing
  import Energy
  import Difficulty
  import Boids

  type InsectId = Boids.InsectId

  const MoveToTargetSpeed: real := 1.0
  const MovementSmooth: real := 0.1
  const TriggerAttackDistance: real := 2.0
  const SpookedMoveSpeed: real := 2.0
  /** The flee push, Inv(distance to the player, 2), is clamped to [0, MaxFleeSpeed]. */
  const MaxFleeSpeed: real := 10.0
  /** The bounds of the random spook duration drawn at Start. */
  const SpookDurationMin: real := 8.0
  const SpookDurationMax: real := 13.0
  /** The sound clips played when a mantis is spooked and when it strikes. */
  const SpookSound: nat := 3
  const StrikeSound: nat := 0

  datatype State = MovingToTarget | Spooked | Attacking

  /**
   * What a mantis asks of the engine besides changing its own fields: the
   * "!" emote (shown, then hidden 0.3 seconds later), a sound clip, the
   * attack animation trigger, and the destruction of its target and itself.
   */
  datatype Effect = ShowEmote | PlaySound(clip: nat) | AttackTrigger | DestroyTarget(insect: InsectId) | DestroySelf

  /**
   * IsSpookedByPlayer, given the player's energy level and the planar
   * distance to the player: never without energy, otherwise exactly when the
   * player is inside the flight zone.
   */
  function SpookedByPlayer(energy01: real, planarDistance: real, flightZoneRadius: real): (spooked: bool)
    ensures energy01 <= Energy.HasEnergyThreshold ==> !spooked
    ensures energy01 > Energy.HasEnergyThreshold ==> (spooked <==> planarDistance < flightZoneRadius)
  {
    if energy01 > Energy.HasEnergyThreshold then planarDistance < flightZoneRadius else false
  }

  /**
   * A player who has gone energyDepleteTime seconds without a bite since the
   * last refill spooks no mantis, however close.
   */
  lemma ExhaustedPlayerSpooksNoMantis(dts: seq<real>, depleteTime: real, planarDistance: real, flightZoneRadius: real)
    requires depleteTime > 0.0 && Energy.NonNegative(dts) && Energy.Sum(dts) >= depleteTime
    ensures !SpookedByPlayer(Energy.DepleteAll(1.0, dts, depleteTime), planarDistance, flightZoneRadius)
  {
    Energy.DrainedAfterDepleteTime(dts, depleteTime);
  }

  /** The expiry check: a Spooked mantis calms down strictly after spookTime + duration. */
  function Expire(s: State, now: real, spookTime: real, duration: real): (r: State)
    ensures s != Spooked ==> r == s
    ensures s == Spooked ==> (r == MovingToTarget <==> now > spookTime + duration)
    ensures s == Spooked ==> (r == Spooked <==> now <= spookTime + duration)
  {
    if s == Spooked && now > spookTime + duration then MovingToTarget else s
  }

  /** The three guards of the attack: not Spooked, the target within reach horizontally, and inside the play area. */
  predicate AttackGuards(s: State, toTargetX: real, inPlayArea: bool) {
    s != Spooked && Abs(toTargetX) < TriggerAttackDistance && inPlayArea
  }

  /**
   * The state after one Update, from the state before it: first the expiry
   * check, then the spook trigger, then the attack trigger.
   */
  function NextState(s: State, now: real, spookTime: real, duration: real,
                     spooked: bool, toTargetX: real, inPlayArea: bool): State
  {
    var calmed := Expire(s, now, spookTime, duration);
    var afterSpook := if spooked then Spooked else calmed;
    if AttackGuards(afterSpook, toTargetX, inPlayArea) then Attacking else afterSpook
  }

  /** A player in the flight zone keeps the mantis Spooked, even when its spook time has run out. */
  lemma NearPlayerKeepsSpooked(s: State, now: real, spookTime: real, duration: real, toTargetX: real, inPlayArea: bool)
    ensures NextState(s, now, spookTime, duration, true, toTargetX, inPlayArea) == Spooked
  {
  }

  /** Until its spook time has run out a Spooked mantis stays Spooked, whatever else happens. */
  lemma SpookLastsItsDuration(now: real, spookTime: real, duration: real, spooked: bool, toTargetX: real, inPlayArea: bool)
    requires now <= spookTime + duration
    ensures NextState(Spooked, now, spookTime, duration, spooked, toTargetX, inPlayArea) == Spooked
  {
  }

  /**
   * The mantis is Attacking after an Update exactly when the player does not
   * spook it and it either was Attacking already or passes the three guards;
   * a Spooked mantis whose time has not run out never passes them.
   */
  lemma AttackingExactly(s: State, now: real, spookTime: real, duration: real,
                         spooked: bool, toTargetX: real, inPlayArea: bool)
    ensures NextState(s, now, spookTime, duration, spooked, toTargetX, inPlayArea) == Attacking <==>
      !spooked && (s == Attacking ||
        (Abs(toTargetX) < TriggerAttackDistance && inPlayArea && (s != Spooked || now > spookTime + duration)))
  {
  }

  /**
   * The mantis walks towards its target after an Update exactly when the
   * player does not spook it, the attack guards fail, and it was walking
   * already or its spook time has run out.
   */
  lemma MovingToTargetExactly(s: State, now: real, spookTime: real, duration: real,
                              spooked: bool, toTargetX: real, inPlayArea: bool)
    ensures NextState(s, now, spookTime, duration, spooked, toTargetX, inPlayArea) == MovingToTarget <==>
      !spooked && !(Abs(toTargetX) < TriggerAttackDistance && inPlayArea) &&
      (s == MovingToTarget || (s == Spooked && now > spookTime + duration))
  {
  }

  /**
   * The push away from the player while Spooked: Inv(distance, 2) clamped to
   * [0, MaxFleeSpeed], signed by the horizontal offset from the player.
   */
  function Flee(playerToMantisX: real, playerDistance: real): (f: real)
    requires playerDistance >= 0.0
    ensures playerToMantisX >= 0.0 ==> 0.0 < f <= MaxFleeSpeed
    ensures playerToMantisX < 0.0 ==> -MaxFleeSpeed <= f < 0.0
  {
    var push := Clamp(Boids.Inv(playerDistance, 2.0), 0.0, MaxFleeSpeed);
    Sign(playerToMantisX) * push
  }

  /**
   * The horizontal speed the mantis aims for in a state: 1 towards the
   * target while walking; while Spooked, SpookedMoveSpeed towards its spawn
   * point plus the flee push; nothing while Attacking.
   */
  function TargetMovement(s: State, toTargetX: real, playerToMantisX: real, playerDistance: real, toSpawnX: real): (m: real)
    requires playerDistance >= 0.0
    ensures s == Attacking ==> m == 0.0
    ensures s == MovingToTarget ==> (m == MoveToTargetSpeed <==> toTargetX >= 0.0)
    ensures s == MovingToTarget ==> (m == -MoveToTargetSpeed <==> toTargetX < 0.0)
    ensures s == Spooked ==> -MaxFleeSpeed - SpookedMoveSpeed <= m <= MaxFleeSpeed + SpookedMoveSpeed
    ensures s == Spooked ==> m - Sign(toSpawnX) * SpookedMoveSpeed == Flee(playerToMantisX, playerDistance)
  {
    match s
    case MovingToTarget => Sign(toTargetX) * MoveToTargetSpeed
    case Spooked => Flee(playerToMantisX, playerDistance) + Sign(toSpawnX) * SpookedMoveSpeed
    case Attacking => 0.0
  }

  /** A frame counted by the preparation: its time step and the level time it ran at. */
  type Frame = (real, real)

  /** The total time of a run of frames. */
  function FrameTime(frames: seq<Frame>): real {
    if frames == [] then 0.0 else frames[0].0 + FrameTime(frames[1..])
  }

  /**
   * The preparation counter `t` after a run of frames, from `progress`: each
   * frame adds dt / MantisAttackPreparation at its level time.
   */
  function Prepare(progress: real, frames: seq<Frame>): real
    decreases |frames|
  {
    if frames == [] then progress
    else Prepare(progress + frames[0].0 / Difficulty.MantisAttackPreparation(frames[0].1), frames[1..])
  }

  /** Counting one more frame adds that frame's share to the counter. */
  lemma {:induction false} PrepareAppend(progress: real, frames: seq<Frame>, dt: real, levelTime: real)
    ensures Prepare(progress, frames + [(dt, levelTime)]) ==
      Prepare(progress, frames) + dt / Difficulty.MantisAttackPreparation(levelTime)
    decreases |frames|
  {
    if frames != [] {
      assert (frames + [(dt, levelTime)])[1..] == frames[1..] + [(dt, levelTime)];
      PrepareAppend(progress + frames[0].0 / Difficulty.MantisAttackPreparation(frames[0].1), frames[1..], dt, levelTime);
    }
  }

  /** Preparation grows linearly with the frame time: a fifth of the elapsed seconds. */
  lemma {:induction false} PrepareIsLinear(progress: real, frames: seq<Frame>)
    ensures Prepare(progress, frames) == progress + FrameTime(frames) / 5.0
    decreases |frames|
  {
    if frames != [] {
      var p := Difficulty.MantisAttackPreparation(frames[0].1);
      PrepareIsLinear(progress + frames[0].0 / p, frames[1..]);
      Energy.DivAdd(frames[0].0, FrameTime(frames[1..]), 5.0);
    }
  }

  /** Starting from nothing, preparation is complete exactly when five seconds of frame time have passed. */
  lemma PreparationTakesFiveSeconds(frames: seq<Frame>)
    ensures Prepare(0.0, frames) >= 1.0 <==> FrameTime(frames) >= 5.0
  {
    PrepareIsLinear(0.0, frames);
  }

  /**
   * SelectTarget: no target when the shared insect list is empty, otherwise
   * the insect at an index drawn from [0, count).
   */
  method SelectTarget(insects: seq<InsectId>) returns (target: Option<InsectId>)
    ensures target.None? <==> insects == []
    ensures target.Some? ==> target.value in insects
  {
    if |insects| == 0 {
      return None;
    }
    var randomTarget :| 0 <= randomTarget < |insects|;
    return Some(insects[randomTarget]);
  }

  /** The fields of a mantis that a frame may change, gathered to say what stays the same. */
  datatype Fields = Fields(position: Vec3, target: Option<InsectId>, state: State, spookTime: real,
                           movement: real, refMovement: real, heading: Facing.Heading, scaleX: real,
                           preparing: bool, progress: real, destroyed: bool, effects: seq<Effect>)

  class Mantis {
    const flightZoneRadius: real
    const spookStateDuration: real
    const spawnPosition: Vec2
    var position: Vec3
    var target: Option<InsectId>
    var state: State
    var spookTime: real
    var movement: real
    var refMovement: real
    var dir: Facing.Direction
    var lastTurnTime: real
    /** The x of the local scale: -1 mirrors the sprite to face right. */
    var scaleX: real
    /** The AttackAnim coroutine is in its preparation loop, with `t` equal to `progress`. */
    var preparing: bool
    var progress: real
    /** The frames the running preparation has counted. */
    ghost var prepFrames: seq<Frame>
    var destroyed: bool
    var effects: seq<Effect>

    /**
     * Between frames: the spook duration is one Start could draw, and a
     * running preparation belongs to an Attacking, living mantis and its
     * counter is what its frames add up to.
     */
    ghost predicate Valid()
      reads this
    {
      SpookDurationMin <= spookStateDuration <= SpookDurationMax &&
      (preparing ==> state == Attacking && !destroyed) &&
      (preparing ==> progress == Prepare(0.0, prepFrames))
    }

    function Heading(): Facing.Heading
      reads this
    {
      Facing.Heading(dir, lastTurnTime)
    }

    function Snapshot(): Fields
      reads this
    {
      Fields(position, target, state, spookTime, movement, refMovement, Heading(), scaleX,
             preparing, progress, destroyed, effects)
    }

    /**
     * Start: the target is picked from the shared insect list, the spawn
     * point is the starting position, and the spook duration is
     * `spookDuration`, the value Random.Range drew from [8, 13].
     */
    constructor Start(position: Vec3, flightZoneRadius: real, spookDuration: real, insects: seq<InsectId>)
      requires SpookDurationMin <= spookDuration <= SpookDurationMax
      ensures Valid()
      ensures this.position == position && spawnPosition == Vec2(position.x, position.y)
      ensures this.flightZoneRadius == flightZoneRadius && spookStateDuration == spookDuration
      ensures target.None? <==> insects == []
      ensures target.Some? ==> target.value in insects
      ensures state == MovingToTarget && spookTime == 0.0 && movement == 0.0 && refMovement == 0.0
      ensures Heading() == Facing.Heading(Facing.Left, 0.0) && scaleX == 1.0
      ensures !preparing && !destroyed && effects == []
    {
      var selected := SelectTarget(insects);
      this.position := position;
      this.flightZoneRadius := flightZoneRadius;
      spookStateDuration := spookDuration;
      spawnPosition := Vec2(position.x, position.y);
      target := selected;
      state := MovingToTarget;
      spookTime := 0.0;
      movement := 0.0;
      refMovement := 0.0;
      dir := Facing.Left;
      lastTurnTime := 0.0;
      scaleX := 1.0;
      preparing := false;
      progress := 0.0;
      prepFrames := [];
      destroyed := false;
      effects := [];
    }

    /** IsSpookedByPlayer, with the planar distance measured by `planarDistance` (Vector2.Distance). */
    predicate IsSpookedByPlayer(energy: Energy.PlayerEnergy, playerPos: Vec3, planarDistance: (Vec2, Vec2) -> real)
      reads this, energy
      ensures IsSpookedByPlayer(energy, playerPos, planarDistance) ==
        SpookedByPlayer(energy.energy01, planarDistance(Vec2(position.x, position.y), Vec2(playerPos.x, playerPos.y)), flightZoneRadius)
    {
      if energy.HasEnergy() then
        planarDistance(Vec2(position.x, position.y), Vec2(playerPos.x, playerPos.y)) < flightZoneRadius
      else
        false
    }

    /** The target is null: none was found, or the insect has been destroyed. */
    predicate TargetGone(positions: map<InsectId, Vec3>)
      reads this
    {
      target.None? || target.value !in positions
    }

    /**
     * Spook: the spook timer restarts; only a mantis that was not Spooked
     * already becomes Spooked, shows the emote and plays the spook sound.
     */
    method Spook(now: real)
      modifies this
      ensures spookTime == now && state == Spooked
      ensures effects == old(effects) + (if old(state) == Spooked then [] else [ShowEmote, PlaySound(SpookSound)])
      ensures Snapshot() == old(Snapshot()).(spookTime := now, state := Spooked, effects := effects)
      ensures prepFrames == old(prepFrames)
    {
      spookTime := now;
      if state == Spooked {
        return;
      }
      state := Spooked;
      effects := effects + [ShowEmote, PlaySound(SpookSound)];
    }

    /**
     * Attack: nothing for a mantis that is Attacking already; otherwise it
     * becomes Attacking and starts the preparation, whose first step runs at
     * once and counts this frame's time.
     */
    method Attack(dt: real, levelTime: real)
      modifies this
      ensures state == Attacking
      ensures old(state) == Attacking ==> Snapshot() == old(Snapshot()) && prepFrames == old(prepFrames)
      ensures old(state) != Attacking ==>
        Snapshot() == old(Snapshot()).(state := Attacking, preparing := true, progress := progress) &&
        progress == dt / Difficulty.MantisAttackPreparation(levelTime) && prepFrames == [(dt, levelTime)]
    {
      if state == Attacking {
        return;
      }
      state := Attacking;
      preparing := true;
      var t := 0.0;
      t := t + dt / Difficulty.MantisAttackPreparation(levelTime);
      progress := t;
      prepFrames := [(dt, levelTime)];
    }

    /**
     * Turn: the facing rule applied to the movement, with the sprite
     * mirrored to match.
     */
    method Turn(now: real)
      modifies this
      ensures Heading() == Facing.Turn(old(Heading()), now, movement)
      ensures Heading() != old(Heading()) ==> scaleX == (if dir == Facing.Right then -1.0 else 1.0)
      ensures Heading() == old(Heading()) ==> scaleX == old(scaleX)
      ensures Snapshot() == old(Snapshot()).(heading := Heading(), scaleX := scaleX)
      ensures prepFrames == old(prepFrames)
    {
      if now < lastTurnTime + Facing.TurnInterval {
        return;
      }
      if movement > 0.0 && dir != Facing.Right {
        scaleX := -1.0;
        dir := Facing.Right;
        lastTurnTime := now;
      } else if movement < 0.0 && dir != Facing.Left {
        scaleX := 1.0;
        dir := Facing.Left;
        lastTurnTime := now;
      }
    }

    /**
     * Update, one frame of the mantis' own logic. Nothing happens once the
     * game is over; a mantis without a living target only picks a new one.
     * Otherwise the state moves on (expiry, spook, attack), the movement
     * follows the state's target movement through SmoothDamp, the mantis
     * moves horizontally by movement * dt and turns.
     * `planarDistance` is Vector2.Distance, `magnitude` Vector3.magnitude,
     * `inPlayArea` PlayArea.IsInPlayArea and `smoothDamp(current, target,
     * velocity, smoothTime)` Mathf.SmoothDamp returning the new value and
     * the new velocity.
     */
    method Update(now: real, dt: real, levelTime: real, gameOver: bool, insects: seq<InsectId>,
                  positions: map<InsectId, Vec3>, playerPos: Vec3, energy: Energy.PlayerEnergy,
                  planarDistance: (Vec2, Vec2) -> real, magnitude: Vec3 -> real, inPlayArea: real -> bool,
                  smoothDamp: (real, real, real, real) -> (real, real))
      requires magnitude(Sub3(position, playerPos)) >= 0.0
      modifies this
      ensures prepFrames == old(prepFrames) || (old(state) != Attacking && prepFrames == [(dt, levelTime)])
      ensures gameOver ==> Snapshot() == old(Snapshot())
      ensures !gameOver && old(TargetGone(positions)) ==>
        Snapshot() == old(Snapshot()).(target := target) &&
        (target.None? <==> insects == []) && (target.Some? ==> target.value in insects)
      ensures !gameOver && !old(TargetGone(positions)) ==>
        var spooked := old(IsSpookedByPlayer(energy, playerPos, planarDistance));
        var toTargetX := positions[old(target).value].x - old(position).x;
        var calmed := Expire(old(state), now, old(spookTime), spookStateDuration);
        state == NextState(old(state), now, old(spookTime), spookStateDuration, spooked, toTargetX, inPlayArea(old(position).x)) &&
        spookTime == (if spooked then now else old(spookTime)) &&
        effects == old(effects) + (if spooked && calmed != Spooked then [ShowEmote, PlaySound(SpookSound)] else [])
      ensures !gameOver && !old(TargetGone(positions)) ==>
        if state == Attacking && old(state) != Attacking then
          preparing && progress == dt / Difficulty.MantisAttackPreparation(levelTime) && prepFrames == [(dt, levelTime)]
        else
          preparing == old(preparing) && progress == old(progress) && prepFrames == old(prepFrames)
      ensures !gameOver && !old(TargetGone(positions)) ==>
        var m := TargetMovement(state, positions[old(target).value].x - old(position).x,
                                old(position).x - playerPos.x, old(magnitude(Sub3(position, playerPos))),
                                spawnPosition.x - old(position).x);
        (movement, refMovement) == smoothDamp(old(movement), m, old(refMovement), MovementSmooth) &&
        position == old(position).(x := old(position).x + movement * dt) &&
        Heading() == Facing.Turn(old(Heading()), now, movement) &&
        target == old(target) && destroyed == old(destroyed)
      ensures Heading() == old(Heading()) ==> scaleX == old(scaleX)
      ensures Heading() != old(Heading()) ==> scaleX == (if dir == Facing.Right then -1.0 else 1.0)
    {
      if gameOver {
        return;
      }
      if TargetGone(positions) {
        target := SelectTarget(insects);
        return;
      }
      var targetPos := positions[target.value];
      var toTarget := Vec2(targetPos.x - position.x, targetPos.y - position.y);
      var playerToMantis := Sub3(position, playerPos);
      var distanceToPlayer := magnitude(playerToMantis);
      var toSpawnPos := spawnPosition.x - position.x;
      var spooked := IsSpookedByPlayer(energy, playerPos, planarDistance);
      ChangeState(now, dt, levelTime, spooked, toTarget.x, inPlayArea(position.x));
      var targetMovement := TargetMovement(state, toTarget.x, playerToMantis.x, distanceToPlayer, toSpawnPos);
      Advance(now, dt, targetMovement, smoothDamp);
    }

    /**
     * The state part of Update: the expiry check, then the spook trigger
     * (`spooked` is IsSpookedByPlayer, which does not depend on the state),
     * then the attack trigger with its three guards.
     */
    method ChangeState(now: real, dt: real, levelTime: real, spooked: bool, toTargetX: real, inPlayArea: bool)
      modifies this
      ensures state == NextState(old(state), now, old(spookTime), spookStateDuration, spooked, toTargetX, inPlayArea)
      ensures spookTime == (if spooked then now else old(spookTime))
      ensures effects == old(effects) +
        (if spooked && Expire(old(state), now, old(spookTime), spookStateDuration) != Spooked
         then [ShowEmote, PlaySound(SpookSound)] else [])
      ensures if state == Attacking && old(state) != Attacking then
          preparing && progress == dt / Difficulty.MantisAttackPreparation(levelTime) && prepFrames == [(dt, levelTime)]
        else
          preparing == old(preparing) && progress == old(progress) && prepFrames == old(prepFrames)
      ensures position == old(position) && target == old(target) && destroyed == old(destroyed)
      ensures movement == old(movement) && refMovement == old(refMovement)
      ensures Heading() == old(Heading()) && scaleX == old(scaleX)
    {
      if state == Spooked && now > spookTime + spookStateDuration {
        state := MovingToTarget;
      }
      if spooked {
        Spook(now);
      }
      if state != Spooked && Abs(toTargetX) < TriggerAttackDistance && inPlayArea {
        Attack(dt, levelTime);
      }
    }

    /**
     * The movement part of Update: the movement follows `targetMovement`
     * through SmoothDamp, the mantis moves horizontally by movement * dt
     * (its local right axis is the world's) and turns.
     */
    method Advance(now: real, dt: real, targetMovement: real, smoothDamp: (real, real, real, real) -> (real, real))
      modifies this
      ensures (movement, refMovement) == smoothDamp(old(movement), targetMovement, old(refMovement), MovementSmooth)
      ensures position == old(position).(x := old(position).x + movement * dt)
      ensures Heading() == Facing.Turn(old(Heading()), now, movement)
      ensures Heading() == old(Heading()) ==> scaleX == old(scaleX)
      ensures Heading() != old(Heading()) ==> scaleX == (if dir == Facing.Right then -1.0 else 1.0)
      ensures state == old(state) && target == old(target) && destroyed == old(destroyed)
      ensures spookTime == old(spookTime) && effects == old(effects)
      ensures preparing == old(preparing) && progress == old(progress) && prepFrames == old(prepFrames)
    {
      var (nextMovement, nextRef) := smoothDamp(movement, targetMovement, refMovement, MovementSmooth);
      movement, refMovement := nextMovement, nextRef;
      position := position.(x := position.x + movement * dt);
      Turn(now);
    }

    /**
     * One resumption of the AttackAnim coroutine in its preparation loop.
     * Once `t` has reached 1 the loop ends: the attack animation is
     * triggered and, if the target still exists, the strike sound plays and
     * the target and the mantis are destroyed. Otherwise this frame's time is
     * counted, and the coroutine ends if the mantis is no longer Attacking.
     */
    method ResumePreparation(dt: real, levelTime: real, positions: map<InsectId, Vec3>)
      requires preparing
      modifies this
      ensures old(progress) >= 1.0 ==> !preparing && progress == old(progress) && prepFrames == old(prepFrames)
      ensures old(progress) >= 1.0 && old(TargetGone(positions)) ==>
        effects == old(effects) + [AttackTrigger] && destroyed == old(destroyed)
      ensures old(progress) >= 1.0 && !old(TargetGone(positions)) ==>
        effects == old(effects) + [AttackTrigger, PlaySound(StrikeSound), DestroyTarget(old(target).value), DestroySelf] &&
        destroyed
      ensures old(progress) < 1.0 ==>
        progress == old(progress) + dt / Difficulty.MantisAttackPreparation(levelTime) &&
        prepFrames == old(prepFrames) + [(dt, levelTime)] &&
        preparing == (state == Attacking) && effects == old(effects) && destroyed == old(destroyed)
      ensures state == old(state) && target == old(target) && position == old(position)
      ensures movement == old(movement) && refMovement == old(refMovement) && spookTime == old(spookTime)
      ensures Heading() == old(Heading()) && scaleX == old(scaleX)
    {
      if !(progress < 1.0) {
        preparing := false;
        effects := effects + [AttackTrigger];
        if TargetGone(positions) {
          return;
        }
        effects := effects + [PlaySound(StrikeSound), DestroyTarget(target.value), DestroySelf];
        destroyed := true;
        return;
      }
      progress := progress + dt / Difficulty.MantisAttackPreparation(levelTime);
      prepFrames := prepFrames + [(dt, levelTime)];
      if state != Attacking {
        preparing := false;
      }
    }
    /**
     * One frame: the mantis' Update, then the resumption of a preparation
     * that was running before it (a preparation started by this Update has
     * already counted its first step). The coroutine does not look at the
     * game-over flag. The mantis strikes only after five seconds of frame
     * time in the Attacking state, at a target that still exists; a
     * preparation whose mantis leaves the Attacking state before that ends
     * without destroying anything.
     */
    method Tick(now: real, dt: real, levelTime: real, gameOver: bool, insects: seq<InsectId>,
                positions: map<InsectId, Vec3>, playerPos: Vec3, energy: Energy.PlayerEnergy,
                planarDistance: (Vec2, Vec2) -> real, magnitude: Vec3 -> real, inPlayArea: real -> bool,
                smoothDamp: (real, real, real, real) -> (real, real))
      requires Valid() && !destroyed
      requires magnitude(Sub3(position, playerPos)) >= 0.0
      modifies this
      ensures Valid()
      ensures !old(preparing) ==> !destroyed
      ensures destroyed ==>
        old(preparing) && FrameTime(old(prepFrames)) >= 5.0 && !TargetGone(positions) &&
        |effects| >= 2 && effects[|effects| - 2..] == [DestroyTarget(target.value), DestroySelf]
      ensures old(preparing) && old(progress) < 1.0 && state != Attacking ==> !preparing && !destroyed
      ensures old(preparing) && old(progress) >= 1.0 ==> !preparing
      ensures old(preparing) && old(progress) >= 1.0 && !TargetGone(positions) ==> destroyed
      ensures old(preparing) && old(progress) < 1.0 ==>
        progress == old(progress) + dt / Difficulty.MantisAttackPreparation(levelTime) &&
        prepFrames == old(prepFrames) + [(dt, levelTime)]
      ensures !old(preparing) && preparing ==>
        progress == dt / Difficulty.MantisAttackPreparation(levelTime) && prepFrames == [(dt, levelTime)]
      ensures !old(preparing) ==>
        (preparing <==> !gameOver && !old(TargetGone(positions)) && state == Attacking && old(state) != Attacking)
      ensures old(preparing) && old(progress) < 1.0 && state == Attacking ==> preparing
      ensures gameOver || old(TargetGone(positions)) ==> spookTime == old(spookTime)
      ensures !gameOver && !old(TargetGone(positions)) ==>
        spookTime == (if old(IsSpookedByPlayer(energy, playerPos, planarDistance)) then now else old(spookTime))
      ensures
        var spookFx :=
          if !gameOver && !old(TargetGone(positions)) && old(IsSpookedByPlayer(energy, playerPos, planarDistance)) &&
             Expire(old(state), now, old(spookTime), spookStateDuration) != Spooked
          then [ShowEmote, PlaySound(SpookSound)] else [];
        var strikeFx :=
          if !(old(preparing) && old(progress) >= 1.0) then []
          else if TargetGone(positions) then [AttackTrigger]
          else [AttackTrigger, PlaySound(StrikeSound), DestroyTarget(target.value), DestroySelf];
        effects == old(effects) + spookFx + strikeFx
      ensures Heading() == old(Heading()) ==> scaleX == old(scaleX)
      ensures Heading() != old(Heading()) ==> scaleX == (if dir == Facing.Right then -1.0 else 1.0)
      ensures gameOver ==> state == old(state) && position == old(position) && target == old(target)
      ensures !gameOver && old(TargetGone(positions)) ==>
        state == old(state) && position == old(position) &&
        (target.None? <==> insects == []) && (target.Some? ==> target.value in insects)
      ensures !gameOver && !old(TargetGone(positions)) ==>
        var toTargetX := positions[old(target).value].x - old(position).x;
        var m := TargetMovement(state, toTargetX, old(position).x - playerPos.x,
                                old(magnitude(Sub3(position, playerPos))), spawnPosition.x - old(position).x);
        state == NextState(old(state), now, old(spookTime), spookStateDuration,
                           old(IsSpookedByPlayer(energy, playerPos, planarDistance)), toTargetX, inPlayArea(old(position).x)) &&
        (movement, refMovement) == smoothDamp(old(movement), m, old(refMovement), MovementSmooth) &&
        position == old(position).(x := old(position).x + movement * dt) &&
        Heading() == Facing.Turn(old(Heading()), now, movement) &&
        target == old(target)
    {
      var wasPreparing := preparing;
      Update(now, dt, levelTime, gameOver, insects, positions, playerPos, energy, planarDistance, magnitude, inPlayArea, smoothDamp);
      if !wasPreparing {
        if preparing {
          PrepareAppend(0.0, [], dt, levelTime);
        }
        return;
      }
      ghost var before := prepFrames;
      PreparationTakesFiveSeconds(before);
      ResumePreparation(dt, levelTime, positions);
      if preparing {
        PrepareAppend(0.0, before, dt, levelTime);
      }
    }
  }
}

=== FILE: play_area.dfy ===
/** PlayArea: the rectangle the mantises and mosquitoes are kept in. */
module PlayArea {
  import opened Mathf
  import opened Vectors

  /** A Rect by its corner and size; its edges are the xMin, xMax, yMin and yMax below. */
  datatype Rect = Rect(x: real, y: real, width: real, height: real)
  {
    function XMin(): real { x }
    function XMax(): real { x + width }
    function YMin(): real { y }
    function YMax(): real { y + height }

    /** The edges are in order (a Rect with a negative size is not). */
    predicate WellFormed() { XMin() <= XMax() && YMin() <= YMax() }

    predicate Contains(p: Vec2) { XMin() <= p.x <= XMax() && YMin() <= p.y <= YMax() }
  }

  /** Each coordinate is clamped between the matching edges of the play rectangle. */
  function ClampToPlayArea(pos: Vec2, playRect: Rect): (r: Vec2)
    ensures playRect.WellFormed() ==> playRect.Contains(r)
    ensures playRect.Contains(pos) ==> r == pos
  {
    Vec2(Clamp(pos.x, playRect.XMin(), playRect.XMax()),
         Clamp(pos.y, playRect.YMin(), playRect.YMax()))
  }

  /** Clamping a clamped point changes nothing. */
  lemma ClampIdempotent(pos: Vec2, playRect: Rect)
    requires playRect.WellFormed()
    ensures ClampToPlayArea(ClampToPlayArea(pos, playRect), playRect) == ClampToPlayArea(pos, playRect)
  {
    var once := ClampToPlayArea(pos, playRect);
    assert playRect.Contains(once);
  }

  /** Each coordinate of the result depends on the same coordinate of the input only. */
  lemma ClampCoordinatesIndependent(p: Vec2, q: Vec2, playRect: Rect)
    ensures p.x == q.x ==> ClampToPlayArea(p, playRect).x == ClampToPlayArea(q, playRect).x
    ensures p.y == q.y ==> ClampToPlayArea(p, playRect).y == ClampToPlayArea(q, playRect).y
  {
  }
}

=== FILE: player_energy.dfy ===
/**
 * PlayerEnergy: the player's energy, a value in [0, 1] that drains over
 * energyDepleteTime seconds and is refilled by each successful bite, and the
 * flashing of the player's light as it runs out.
 */
module Energy {
  import opened Mathf
  import opened Wrappers

  /** The player counts as having energy above this level. */
  const HasEnergyThreshold: real := 0.01
  /** Above this level the light never flashes off. */
  const SteadyLightLevel: real := 0.3

  /** What UpdateVisuals hands to the renderer: the "_On" value and the glow circle's scale. */
  datatype Visuals = Visuals(flash: real, glowScale: real)

  /** One frame of decay: dt / depleteTime is taken off and the result clamped to [0, 1]. */
  function Deplete(energy: real, dt: real, depleteTime: real): (e: real)
    requires depleteTime > 0.0
    ensures 0.0 <= e <= 1.0
    ensures 0.0 <= energy - dt / depleteTime <= 1.0 ==> e == energy - dt / depleteTime
    ensures energy >= 0.0 && dt >= 0.0 ==> e <= energy
    ensures energy - dt / depleteTime <= 0.0 ==> e == 0.0
  {
    Clamp01(energy - dt / depleteTime)
  }

  /** Energy after a run of frames with the given frame times. */
  function DepleteAll(energy: real, dts: seq<real>, depleteTime: real): (e: real)
    requires depleteTime > 0.0
    ensures dts != [] ==> 0.0 <= e <= 1.0
    decreases |dts|
  {
    if dts == [] then energy else DepleteAll(Deplete(energy, dts[0], depleteTime), dts[1..], depleteTime)
  }

  function Sum(dts: seq<real>): real {
    if dts == [] then 0.0 else dts[0] + Sum(dts[1..])
  }

  predicate NonNegative(dts: seq<real>) {
    forall i :: 0 <= i < |dts| ==> dts[i] >= 0.0
  }

  /** With non-negative frame times, the energy left is what remains of the start after the elapsed time, or 0. */
  lemma {:induction false} DepleteAllIsLinear(energy: real, dts: seq<real>, depleteTime: real)
    requires depleteTime > 0.0 && 0.0 <= energy <= 1.0 && NonNegative(dts)
    ensures Sum(dts) >= 0.0
    ensures DepleteAll(energy, dts, depleteTime) == Max(0.0, energy - Sum(dts) / depleteTime)
    decreases |dts|
  {
    if dts != [] {
      var rest := dts[1..];
      assert NonNegative(rest) by {
        forall i | 0 <= i < |rest| ensures rest[i] >= 0.0 { assert rest[i] == dts[i + 1]; }
      }
      var d := dts[0] / depleteTime;
      var next := Deplete(energy, dts[0], depleteTime);
      DivNonNegative(dts[0], depleteTime);
      assert next == Max(0.0, energy - d);
      DepleteAllIsLinear(next, rest, depleteTime);
      var s := Sum(rest) / depleteTime;
      DivNonNegative(Sum(rest), depleteTime);
      DivAdd(dts[0], Sum(rest), depleteTime);
      assert Sum(dts) / depleteTime == d + s;
      assert DepleteAll(energy, dts, depleteTime) == Max(0.0, next - s);
    }
  }

  lemma DivAdd(a: real, c: real, b: real)
    requires b > 0.0
    ensures (a + c) / b == a / b + c / b
  {
  }

  /** Whatever the frame times, energy is gone once energyDepleteTime seconds have passed without a bite. */
  lemma DrainedAfterDepleteTime(dts: seq<real>, depleteTime: real)
    requires depleteTime > 0.0 && NonNegative(dts) && Sum(dts) >= depleteTime
    ensures DepleteAll(1.0, dts, depleteTime) == 0.0
  {
    DepleteAllIsLinear(1.0, dts, depleteTime);
    assert Sum(dts) / depleteTime >= 1.0 by {
      DivAdd(Sum(dts) - depleteTime, depleteTime, depleteTime);
      DivNonNegative(Sum(dts) - depleteTime, depleteTime);
    }
  }

  /** Energy never increases over a run of frames without a bite. */
  lemma NeverRecharges(energy: real, dts: seq<real>, depleteTime: real)
    requires depleteTime > 0.0 && 0.0 <= energy <= 1.0 && NonNegative(dts)
    ensures DepleteAll(energy, dts, depleteTime) <= energy
  {
    DepleteAllIsLinear(energy, dts, depleteTime);
    DivNonNegative(Sum(dts), depleteTime);
  }

  /**
   * The light's on/off value for an energy level and the value of the sine
   * wave this frame: off at zero energy, on above SteadyLightLevel, and in
   * between on exactly when the sine exceeds an energy-dependent threshold.
   */
  function Flash(energy: real, sine: real): (flash: real)
    ensures flash == 0.0 || flash == 1.0
    ensures energy == 0.0 ==> flash == 0.0
    ensures energy > SteadyLightLevel ==> flash == 1.0
    ensures energy != 0.0 && energy <= SteadyLightLevel ==>
      (flash == 1.0 <==> sine > Lerp(0.5, 0.1, energy))
  {
    if energy == 0.0 then 0.0
    else if energy > SteadyLightLevel then 1.0
    else if sine > Lerp(0.5, 0.1, energy) then 1.0
    else 0.0
  }

  /** The glow circle's scale: 3 with no energy, 10 with full energy, and in between otherwise. */
  function GlowScale(energy: real): (g: real)
    ensures 3.0 <= g <= 10.0
    ensures energy <= 0.0 ==> g == 3.0
    ensures energy >= 1.0 ==> g == 10.0
  {
    Lerp(3.0, 10.0, energy)
  }

  /** Outside the flashing band the sine wave has no effect at all. */
  lemma FlashIgnoresSine(energy: real, sine1: real, sine2: real)
    requires energy == 0.0 || energy > SteadyLightLevel
    ensures Flash(energy, sine1) == Flash(energy, sine2)
  {
  }

  class PlayerEnergy {
    const energyDepleteTime: real
    var energy01: real

    ghost predicate Valid()
      reads this
    {
      energyDepleteTime > 0.0 && 0.0 <= energy01 <= 1.0
    }

    /** Start: the level begins with full energy. */
    constructor Start(energyDepleteTime: real)
      requires energyDepleteTime > 0.0
      ensures Valid()
      ensures this.energyDepleteTime == energyDepleteTime && energy01 == 1.0
    {
      this.energyDepleteTime := energyDepleteTime;
      energy01 := 1.0;
    }

    predicate HasEnergy()
      reads this
    {
      energy01 > HasEnergyThreshold
    }

    /**
     * One frame: nothing once the game is over; otherwise the energy drains by
     * dt / energyDepleteTime, clamped to [0, 1], and the visuals are refreshed.
     * `wave(time, rate)` is the engine's Mathf.Sin(time * rate), left opaque.
     */
    method Update(dt: real, gameOver: bool, levelTime: real, wave: (real, real) -> real) returns (visuals: Option<Visuals>)
      requires Valid()
      modifies this
      ensures Valid()
      ensures gameOver ==> energy01 == old(energy01) && visuals == None
      ensures !gameOver ==> energy01 == Deplete(old(energy01), dt, energyDepleteTime)
      ensures !gameOver ==> visuals.Some? && visuals.value.flash == Flash(energy01, wave(levelTime, Lerp(10.0, 2.0, energy01)))
      ensures !gameOver ==> visuals.Some? && visuals.value.glowScale == GlowScale(energy01)
      ensures dt >= 0.0 ==> energy01 <= old(energy01)
    {
      if gameOver {
        return None;
      }
      energy01 := energy01 - dt / energyDepleteTime;
      energy01 := Clamp01(energy01);
      var v := UpdateVisuals(levelTime, wave);
      visuals := Some(v);
    }

    /**
     * The flash value and glow scale for the current energy: the sine wave
     * speeds up and its threshold rises as the energy runs out.
     */
    method UpdateVisuals(levelTime: real, wave: (real, real) -> real) returns (v: Visuals)
      requires Valid()
      ensures v.flash == Flash(energy01, wave(levelTime, Lerp(10.0, 2.0, energy01)))
      ensures v.glowScale == GlowScale(energy01)
    {
      var threshold := Lerp(0.5, 0.1, energy01);
      var sine := wave(levelTime, Lerp(10.0, 2.0, energy01));
      var flash := sine;
      if flash > threshold {
        flash := 1.0;
      } else {
        flash := 0.0;
      }
      if energy01 == 0.0 {
        flash := 0.0;
      } else if energy01 > SteadyLightLevel {
        flash := 1.0;
      }
      var glowScale := GlowScale(energy01);
      assert flash == Flash(energy01, sine);
      v := Visuals(flash, glowScale);
    }

    /** A successful bite refills the energy. */
    method OnBite()
      requires Valid()
      modifies this
      ensures Valid() && energy01 == 1.0
    {
      energy01 := 1.0;
    }
  }
}

=== FILE: unity_math.dfy ===
/** The scalar helpers of the engine's Mathf class that the core calls, over reals. */
module Mathf {

  /** Mathf.Clamp: below `min` gives `min`, otherwise above `max` gives `max`. */
  function Clamp(value: real, min: real, max: real): (r: real)
    ensures min <= max ==> min <= r <= max
    ensures min <= value <= max ==> r == value
    ensures value < min ==> r == min
    ensures min <= max && value > max ==> r == max
  {
    if value < min then min else if value > max then max else value
  }

  /** Mathf.Clamp01. */
  function Clamp01(value: real): (r: real)
    ensures 0.0 <= r <= 1.0
    ensures 0.0 <= value <= 1.0 ==> r == value
    ensures value <= 0.0 ==> r == 0.0
    ensures value >= 1.0 ==> r == 1.0
  {
    Clamp(value, 0.0, 1.0)
  }

  /** Mathf.Lerp clamps its parameter to [0, 1] before interpolating, so it never leaves the segment between a and b. */
  function Lerp(a: real, b: real, t: real): (r: real)
    ensures t <= 0.0 ==> r == a
    ensures t >= 1.0 ==> r == b
    ensures Min(a, b) <= r <= Max(a, b)
    ensures 0.0 <= t <= 1.0 ==> r == a + (b - a) * t
  {
    LerpUnclamped(a, b, Clamp01(t))
  }

  /** Mathf.LerpUnclamped: the point at fraction t from a to b, inside the segment for t in [0, 1]. */
  function LerpUnclamped(a: real, b: real, t: real): (r: real)
    ensures r == a + (b - a) * t
    ensures 0.0 <= t <= 1.0 ==> Min(a, b) <= r <= Max(a, b)
  {
    if 0.0 <= t <= 1.0 then
      FactorBetween(a, b, t);
      a + (b - a) * t
    else
      a + (b - a) * t
  }

  /** start + (end - start) * c with c in [0, 1] lies between start and end. */
  lemma FactorBetween(a: real, b: real, c: real)
    requires 0.0 <= c <= 1.0
    ensures Min(a, b) <= a + (b - a) * c <= Max(a, b)
  {
    AffineMonotone(a, b, 0.0, c);
    AffineMonotone(a, b, c, 1.0);
  }

  /** Mathf.Sign: 1 for every non-negative argument (zero included), -1 otherwise. */
  function Sign(f: real): (r: real)
    ensures r == 1.0 || r == -1.0
    ensures r == 1.0 <==> f >= 0.0
  {
    if f >= 0.0 then 1.0 else -1.0
  }

  function Abs(f: real): (r: real)
    ensures r >= 0.0
    ensures r == f || r == -f
  {
    if f < 0.0 then -f else f
  }

  function Min(a: real, b: real): real { if a <= b then a else b }
  function Max(a: real, b: real): real { if a <= b then b else a }

  lemma MulLe(k: real, a: real, b: real)
    requires k >= 0.0 && a <= b
    ensures k * a <= k * b
  {
    assert k * b - k * a == k * (b - a);
  }

  lemma MulLt(k: real, a: real, b: real)
    requires k > 0.0 && a < b
    ensures k * a < k * b
  {
    assert k * b - k * a == k * (b - a);
  }

  lemma MulNonneg(a: real, b: real)
    requires a >= 0.0 && b >= 0.0
    ensures a * b >= 0.0
  {
  }

  lemma DivNonNegative(a: real, b: real)
    requires a >= 0.0 && b > 0.0
    ensures a / b >= 0.0
  {
  }

  lemma MulPositive(a: real, b: real)
    requires a > 0.0 && b > 0.0
    ensures a * b > 0.0
  {
  }

  lemma MulAtMostOne(a: real, b: real)
    requires 0.0 <= a <= 1.0 && 0.0 <= b <= 1.0
    ensures 0.0 <= a * b <= 1.0
  {
    MulNonneg(a, 1.0 - b);
    MulNonneg(a, b);
    assert a * (1.0 - b) == a - a * b;
  }

  lemma ScaleWithin(k: real, c: real)
    requires k >= 0.0 && 0.0 <= c <= 1.0
    ensures 0.0 <= k * c <= k
  {
    MulNonneg(k, c);
    MulNonneg(k, 1.0 - c);
    assert k * (1.0 - c) == k - k * c;
  }

  /** Lerp is monotone in its parameter, in the direction of b - a. */
  lemma LerpMonotone(a: real, b: real, t1: real, t2: real)
    requires t1 <= t2
    ensures a <= b ==> Lerp(a, b, t1) <= Lerp(a, b, t2)
    ensures b <= a ==> Lerp(a, b, t2) <= Lerp(a, b, t1)
  {
    var c1, c2 := Clamp01(t1), Clamp01(t2);
    assert c1 <= c2;
    AffineMonotone(a, b, c1, c2);
  }

  lemma AffineMonotone(a: real, b: real, c1: real, c2: real)
    requires c1 <= c2
    ensures a <= b ==> a + (b - a) * c1 <= a + (b - a) * c2
    ensures b <= a ==> a + (b - a) * c2 <= a + (b - a) * c1
  {
    if a <= b {
      MulLe(b - a, c1, c2);
    } else {
      MulLe(a - b, c1, c2);
      assert (b - a) * c2 == -((a - b) * c2);
      assert (b - a) * c1 == -((a - b) * c1);
    }
  }
}

/** Vector2 and Vector3 as value types over reals. */
module Vectors {
  import Mathf

  datatype Vec2 = Vec2(x: real, y: real)
  datatype Vec3 = Vec3(x: real, y: real, z: real)

  const Zero2 := Vec2(0.0, 0.0)
  const Zero3 := Vec3(0.0, 0.0, 0.0)

  function Add2(a: Vec2, b: Vec2): Vec2 { Vec2(a.x + b.x, a.y + b.y) }
  function Sub2(a: Vec2, b: Vec2): Vec2 { Vec2(a.x - b.x, a.y - b.y) }
  function Scale2(a: Vec2, k: real): Vec2 { Vec2(a.x * k, a.y * k) }
  function Div2(a: Vec2, k: real): Vec2 requires k != 0.0 { Vec2(a.x / k, a.y / k) }
  function SqrMag2(a: Vec2): (r: real) ensures r >= 0.0 { a.x * a.x + a.y * a.y }

  function Add3(a: Vec3, b: Vec3): Vec3 { Vec3(a.x + b.x, a.y + b.y, a.z + b.z) }
  function Sub3(a: Vec3, b: Vec3): Vec3 { Vec3(a.x - b.x, a.y - b.y, a.z - b.z) }
  function Scale3(a: Vec3, k: real): Vec3 { Vec3(a.x * k, a.y * k, a.z * k) }
  function Div3(a: Vec3, k: real): Vec3 requires k != 0.0 { Vec3(a.x / k, a.y / k, a.z / k) }
  function SqrMag3(a: Vec3): (r: real) ensures r >= 0.0 { a.x * a.x + a.y * a.y + a.z * a.z }
  function SqrDist3(a: Vec3, b: Vec3): (r: real) ensures r >= 0.0 { SqrMag3(Sub3(a, b)) }

  /** `len` is the Euclidean length of a vector whose squared length is `sqr`. */
  predicate IsLength(len: real, sqr: real) { len >= 0.0 && len * len == sqr }

  /** Vector.Distance(a, b) < r, stated without a square root. */
  predicate DistLess(sqrDist: real, r: real) { r > 0.0 && sqrDist < r * r }

  /** Vector.Distance(a, b) > r, stated without a square root. */
  predicate DistGreater(sqrDist: real, r: real) { !(r >= 0.0 && sqrDist <= r * r) }

  /** The squared comparisons agree with the comparisons of the distance itself. */
  lemma DistanceComparisons(len: real, sqr: real, r: real)
    requires IsLength(len, sqr)
    ensures DistLess(sqr, r) <==> len < r
    ensures DistGreater(sqr, r) <==> len > r
  {
    if r >= 0.0 {
      if len < r {
        SquareStrictlyMonotone(len, r);
      } else if len > r {
        SquareStrictlyMonotone(r, len);
      }
    }
  }

  /**
   * Vector.ClampMagnitude, given the length of `v`: a vector longer than
   * `maxLength` is rescaled to that length, any other is returned as it is.
   */
  function ClampMagnitude3(v: Vec3, maxLength: real, len: real): (r: Vec3)
    requires IsLength(len, SqrMag3(v)) && maxLength >= 0.0
    ensures SqrMag3(r) <= maxLength * maxLength
    ensures len <= maxLength ==> r == v
    ensures len > maxLength ==> r == Scale3(v, maxLength / len) && SqrMag3(r) == maxLength * maxLength
  {
    if len > maxLength then
      var k := maxLength / len;
      assert k * len == maxLength;
      ScaledLength3(v, k, len);
      Scale3(v, k)
    else
      assert len * len <= maxLength * maxLength by { SquareMonotone(len, maxLength); }
      v
  }

  function ClampMagnitude2(v: Vec2, maxLength: real, len: real): (r: Vec2)
    requires IsLength(len, SqrMag2(v)) && maxLength >= 0.0
    ensures SqrMag2(r) <= maxLength * maxLength
    ensures len <= maxLength ==> r == v
    ensures len > maxLength ==> r == Scale2(v, maxLength / len) && SqrMag2(r) == maxLength * maxLength
  {
    if len > maxLength then
      var k := maxLength / len;
      assert k * len == maxLength;
      ScaledLength2(v, k, len);
      Scale2(v, k)
    else
      assert len * len <= maxLength * maxLength by { SquareMonotone(len, maxLength); }
      v
  }

  lemma SquareMonotone(a: real, b: real)
    requires 0.0 <= a <= b
    ensures a * a <= b * b
  {
    calc {
      a * a;
    <= { Mathf.MulLe(a, a, b); }
      a * b;
    == 
      b * a;
    <= { Mathf.MulLe(b, a, b); }
      b * b;
    }
  }

  lemma SquareStrictlyMonotone(a: real, b: real)
    requires 0.0 <= a < b
    ensures a * a < b * b
  {
    calc {
      a * a;
    <= { Mathf.MulLe(a, a, b); }
      a * b;
    ==
      b * a;
    < { Mathf.MulLt(b, a, b); }
      b * b;
    }
  }

  lemma ScaledLength3(v: Vec3, k: real, len: real)
    requires IsLength(len, SqrMag3(v)) && len > 0.0
    ensures SqrMag3(Scale3(v, k)) == (k * len) * (k * len)
  {
    calc {
      SqrMag3(Scale3(v, k));
      (v.x * k) * (v.x * k) + (v.y * k) * (v.y * k) + (v.z * k) * (v.z * k);
      k * k * SqrMag3(v);
      (k * len) * (k * len);
    }
  }

  lemma ScaledLength2(v: Vec2, k: real, len: real)
    requires IsLength(len, SqrMag2(v)) && len > 0.0
    ensures SqrMag2(Scale2(v, k)) == (k * len) * (k * len)
  {
    calc {
      SqrMag2(Scale2(v, k));
      (v.x * k) * (v.x * k) + (v.y * k) * (v.y * k);
      k * k * SqrMag2(v);
      (k * len) * (k * len);
    }
  }
}

=== FILE: wrappers.dfy ===
/** Optional values: a missing object reference is None. */
module Wrappers {
  datatype Option<T> = None | Some(value: T)
}
